=== FILE: README.md ===
# Trending-video dashboard: a Dafny model of its data logic

The dashboard reads a Google Sheet of YouTube trending-list entries and
shows one card per video. It can be filtered by a fuzzy search, by region
and by a time range, and the cards are grouped under month headings. This
project models the deterministic logic under the React UI and proves what
that logic promises:

- `services/googleSheetsService.ts`:
  - cutting the JSON payload out of the JSONP envelope;
  - coercing each row's cells into a record, with the `Date(Y,M,D` date-hint parser;
  - the validity filter;
  - `processData`, which keeps one record per video id, the row with the lowest rank and the first one on ties. It also collects the regions and sorts both lists.
- `App.tsx`:
  - the choice between all videos and the search hits;
  - the region and time-range predicates;
  - the group-by on the month-year heading.
- `components/VideoCard.tsx`: the thumbnail fallback chain and the region badge colour.

Modules, one per file:

| file | module | contents |
|---|---|---|
| wrappers.dfy | `Wrappers` | `Option` and `Result` |
| calendar.dfy | `Calendar` | dates as integer day numbers since 1970-01-01, following ECMA-262 section 21.4.1 (DayFromYear, MakeDay) and the two-digit-year rule of the `Date` constructor |
| text.dfy | `Text` | decimal digits, `trim`, `includes` and first/last substring search, the default string order of `Array.prototype.sort` |
| dateformat.dfy | `DateFormat` | the en-US month-year heading and short date |
| types.dfy | `Types` | `RawVideo` and `Video` (types.ts) |
| seqs.dfy | `Seqs` | `filter`, subsequences, insertion-ordered de-duplication, `flat` |
| merge.dfy | `Merge` | `processData`, with a reference definition of "the first row with the lowest rank" |
| sheet.dfy | `Sheet` | date hint, envelope, row decoding, the pipeline from response text to dataset |
| filters.dfy | `Filters` | search and filter, time ranges, grouping |
| videocard.dfy | `VideoCard` | thumbnail fallback and region colours |

Design choices:
- **Host conversions are parameters.** The adapter uses `Number(string)`, `new Date(string)`, `String(date)` and `JSON.parse` without defining them. They are the fields of a `Host` value, with `None` standing for NaN, an Invalid Date or a SyntaxError.
- **The clock is a parameter.** `now` is a day number.
- **The fuzzy search is a parameter.** `searchHits` is the hit list in the library's ranking order.
- **Ordered collections are sequences.** The `Map` and `Set` of `processData` become sequences in insertion order. `Object.entries` of the grouping object is also a sequence, because month headings are never integer-like keys.

## Model

| member | source | states |
|---|---|---|
| Calendar.JsDate | App.tsx:80 | `new Date(y, m, d)`; what it yields is stated by Calendar.FullYearDate and the Filters time-range lemmas |
| Calendar.MakeDay | App.tsx:86 | MakeDay, also behind `setFullYear`; with an in-range month it is DayNumber (Calendar.InRangeMonth), otherwise month `m` is month `m mod 12` of year `y + floor(m / 12)`, so `Date(2024,25,1)` lands in February 2026 and a month of -3 in the year before (Filters.ThreeMonthsOnCalendar) |
| Calendar.FullYearDate | services/googleSheetsService.ts:12 | for a year outside 0 to 99 and an in-range month, `new Date(y, m, d)` is day d of that month |
| Calendar.CivilOf | App.tsx:75 | every day number splits into a valid year, zero-indexed month and day of month, and these rebuild the same day |
| Calendar.DayNumberRoundTrip | services/googleSheetsService.ts:12 | a valid calendar date names a day whose getFullYear, getMonth and getDate give it back |
| Calendar.YearOf | App.tsx:75-86 | `getFullYear`; stated by Calendar.CivilOf and Calendar.DayNumberRoundTrip |
| Calendar.MonthOf | App.tsx:75-80 | `getMonth`, zero-indexed; stated by Calendar.CivilOf and Calendar.DayNumberRoundTrip |
| Calendar.DateOf | App.tsx:75-80 | `getDate`; stated by Calendar.CivilOf and Calendar.DayNumberRoundTrip |
| Calendar.SameMonthIffInMonth | App.tsx:78 | same year and month as today holds exactly for the days from the first to the last of today's month |
| Text.TrimEmptyIffBlank | App.tsx:59 | `trim()` is empty exactly when the string is all whitespace; otherwise its ends are not whitespace |
| Text.Trim | App.tsx:59 | `String.prototype.trim`; stated by Text.TrimEmptyIffBlank and Text.TrimEnds |
| Text.IsJsSpace | App.tsx:59 | the WhiteSpace and LineTerminator characters `trim` strips; stated by Text.TrimEmptyIffBlank |
| Text.IndexOfFrom | services/googleSheetsService.ts:38 | the first occurrence at or after a position, or none when there is no occurrence there |
| Text.LastIndexFrom | services/googleSheetsService.ts:38 | the last occurrence at or after a position, the one a greedy `(.*)` before a fixed suffix ends at |
| Text.IncludesIff | components/VideoCard.tsx:33 | `includes` holds exactly when the pattern occurs at some index |
| Text.Includes | components/VideoCard.tsx:33-35 | `String.prototype.includes`; stated by Text.IncludesIff |
| Text.DecimalRoundTrip | services/googleSheetsService.ts:9-11 | `parseInt(_, 10)` of a number's decimal spelling gives the number back |
| Text.DecimalValue | services/googleSheetsService.ts:9-11 | `parseInt(_, 10)` of a digit string; stated by Text.DecimalRoundTrip |
| Text.SpellingSign | services/googleSheetsService.ts:51 | `String(n)` is never empty, so the empty-string fallback cannot fire for a number, and it starts with '-' exactly for negatives |
| Text.IntToDecimal | services/googleSheetsService.ts:51 | `String(n)` of an integer-valued number; stated by Text.SpellingSign and Text.IntToDecimalInjective |
| Text.IntToDecimalInjective | App.tsx:98 | different integers are spelled differently, which keeps different years apart in the month heading |
| Text.StrLtTransitive | services/googleSheetsService.ts:98 | the default sort order is transitive |
| Text.StrLtTotal | services/googleSheetsService.ts:98 | any two different strings are ordered one way and not both |
| DateFormat.MonthYearLabelIff | App.tsx:98 | two dates get the same month-year heading exactly when they share year and month |
| DateFormat.MonthYearLabel | App.tsx:98 | the month-year heading; stated by DateFormat.MonthYearLabelIff |
| DateFormat.ShortDateLabel | services/googleSheetsService.ts:89-93 | the card date; stated by DateFormat.ShortDateLabelIff |
| DateFormat.ShortDateLabelIff | services/googleSheetsService.ts:89-93 | two days get the same card date exactly when they are the same day, so the label loses nothing of the date |
| Seqs.FilterSpec | App.tsx:68-93 | `filter` keeps exactly the elements that pass, as a subsequence of its input, each passing element as often as it occurs in the input |
| Seqs.Dedup | services/googleSheetsService.ts:72-75 | a Set filled from a list holds each of its elements once, and nothing else |
| Merge.IndexOfId | services/googleSheetsService.ts:76 | `videoMap.get` finds the stored row of an id exactly when one is stored |
| Merge.Upsert | services/googleSheetsService.ts:76-79 | one step of the loop; stated by Merge.UpsertIds and Merge.FoldWinners |
| Merge.Fold | services/googleSheetsService.ts:71-80 | the `forEach` loop; stated by Merge.FoldIds, Merge.FoldRegions and Merge.FoldWinners |
| Merge.Step | services/googleSheetsService.ts:74-80 | one iteration of the `forEach`, with the `regionSet.add` of line 75; stated by Merge.FoldIds, Merge.FoldRegions and Merge.FoldWinners |
| Merge.UpsertIds | services/googleSheetsService.ts:76-79 | a row adds its id at the end when the id is new and leaves the key order alone otherwise |
| Merge.FoldIds | services/googleSheetsService.ts:71-80 | after the loop the map's keys are the distinct input ids in order of first appearance |
| Merge.FoldRegions | services/googleSheetsService.ts:72-75 | after the loop the region set holds the distinct non-empty regions in order of first appearance |
| Merge.FoldWinners | services/googleSheetsService.ts:74-80 | every stored row is the first row holding its id's minimum rank |
| Merge.FirstBestUnique | services/googleSheetsService.ts:77 | each id has at most one first row with the minimum rank |
| Merge.SortByDate | services/googleSheetsService.ts:97 | the sort yields a newest-first permutation of its input |
| Merge.SortByDateStable | services/googleSheetsService.ts:97 | videos published on the same day keep their relative order |
| Merge.SortStrings | services/googleSheetsService.ts:98 | the region sort yields a strictly ascending list of the same strings |
| Merge.ProcessData | services/googleSheetsService.ts:97-98 | videos come newest first and regions strictly ascending, hence without repeats |
| Merge.AscendingIsDistinct | services/googleSheetsService.ts:98 | a strictly ascending list of strings has no repeats, because no string sorts before itself |
| Merge.ProcessDataIds | services/googleSheetsService.ts:71-82 | exactly one video per distinct input id, and none for an id not in the input |
| Merge.ProcessDataWinners | services/googleSheetsService.ts:76-95 | every video is built from the first row attaining its id's minimum rank, so rank, region, title, channel, url and date all come from that row |
| Merge.ToVideo | services/googleSheetsService.ts:82-94 | the record built for a stored row; stated by Merge.ProcessDataWinners |
| Merge.ToVideos | services/googleSheetsService.ts:82-95 | the `map` over the stored rows; stated by Merge.ProcessDataWinners and Merge.ProcessDataIds |
| Merge.ProcessDataRegions | services/googleSheetsService.ts:72-98 | the regions are exactly the non-empty regions of all rows, rows that lost the merge included |
| Merge.ProcessDataStable | services/googleSheetsService.ts:74-97 | same-day videos appear in the order their ids first appeared in the rows |
| Sheet.ParseDateFromSheet | services/googleSheetsService.ts:4-27 | parseDateFromSheet; its behaviour is stated by Sheet.HintWins, Sheet.HintDecides, Sheet.NoHintUsesRawValue and Sheet.NoHintFallsBackToEpoch |
| Sheet.HintDecides | services/googleSheetsService.ts:5-13 | whenever the formatted text holds a match, the date is built from the first match's three captures alone |
| Sheet.DigitRun | services/googleSheetsService.ts:7 | `\d+` takes the longest run of digits at a position |
| Sheet.HintAt | services/googleSheetsService.ts:7 | the regex tried at one position; stated by Sheet.HintAtStart and Sheet.HintFrom |
| Sheet.HintAtStart | services/googleSheetsService.ts:7 | text beginning `Date(Y,M,D` with no digit after D matches at its start and captures Y, M and D |
| Sheet.HintFrom | services/googleSheetsService.ts:7 | the regex search finds a hint exactly when one starts at some position, and the one it returns is the leftmost: no earlier position matches |
| Sheet.DateHint | services/googleSheetsService.ts:7 | the `match` call; stated by Sheet.HintFrom, Sheet.HintDecides and Sheet.HintWins |
| Sheet.HintWins | services/googleSheetsService.ts:5-13 | a hint `Date(Y,M,D` gives the date of year Y, zero-indexed month M and day D, whatever the raw value and the trailing text |
| Sheet.MarchFifteenth | services/googleSheetsService.ts:7-12 | the hint `Date(2024,2,15)` is 15 March 2024 |
| Sheet.NoHintUsesRawValue | services/googleSheetsService.ts:15-24 | without a usable hint, a Date value is kept and a parseable string is parsed |
| Sheet.NoHintFallsBackToEpoch | services/googleSheetsService.ts:15-26 | without a usable hint, any other raw value gives the epoch sentinel; parsing never fails |
| Sheet.ExtractEnvelope | services/googleSheetsService.ts:38 | the envelope regex; stated by Sheet.EnvelopeAbsent and Sheet.EnvelopeRoundTrip |
| Sheet.EnvelopeAbsent | services/googleSheetsService.ts:38-41 | with no opening call, or no `);` after the first opening call (a `);` before it does not help), there is nothing to extract |
| Sheet.EnvelopeRoundTrip | services/googleSheetsService.ts:38 | a payload wrapped in the opening call and `);`, after leading text with no `g` (so no earlier opening call) and before trailing text with no `);`, comes back whole, even when it contains `);` itself |
| Sheet.DecodeRow | services/googleSheetsService.ts:49-59 | the row-to-record mapping; stated by Sheet.NonNumericRankIsDropped, Sheet.MissingIdIsUndefined, Sheet.EmptyThumbnailsDefault and Sheet.HintWins |
| Sheet.CellAt | services/googleSheetsService.ts:50-59 | `row.c[i]`, absent past the end or when null; stated by Sheet.CellFields |
| Sheet.ValueAt | services/googleSheetsService.ts:50-59 | `row.c[i]?.v`; stated by Sheet.CellFields, Sheet.NonNumericRankIsDropped and Sheet.MissingIdIsUndefined |
| Sheet.FormattedAt | services/googleSheetsService.ts:53 | `row.c[i]?.f`, the date hint; stated by Sheet.CellFields |
| Sheet.CellFields | services/googleSheetsService.ts:50-59 | a present cell gives its own value and formatted text; a cell past the end of the row or null gives `undefined` for both |
| Sheet.ToNumber | services/googleSheetsService.ts:50 | `Number(v)`; stated by Sheet.NonNumericRankIsDropped |
| Sheet.ToJsString | services/googleSheetsService.ts:51-59 | `String(v)`; stated by Sheet.MissingIdIsUndefined and Text.SpellingSign |
| Sheet.OrElse | services/googleSheetsService.ts:51-59 | the fallback for a falsy, that is empty, string; stated by Sheet.EmptyThumbnailsDefault |
| Sheet.IsValidRow | services/googleSheetsService.ts:60 | the row filter; stated by Sheet.DecodeRows, Sheet.NonNumericRankIsDropped and Sheet.MissingIdIsUndefined |
| Sheet.DecodeRows | services/googleSheetsService.ts:49-60 | the result is the `filter` of the `map`: the decoded rows with a non-empty id and a positive rank, each as often as it occurs and in table order |
| Seqs.MapFilter | services/googleSheetsService.ts:49-60 | the one-pass map-and-filter equals `filter` after `map`, keeps only passing images and keeps every passing one |
| Sheet.NonNumericRankIsDropped | services/googleSheetsService.ts:50-60 | a missing, null or non-numeric rank coerces to 0 and the row is dropped |
| Sheet.MissingIdIsUndefined | services/googleSheetsService.ts:54-60 | a missing id cell becomes the id "undefined", so only the rank decides whether the row is kept |
| Sheet.EmptyThumbnailsDefault | services/googleSheetsService.ts:57 | an empty thumbnails cell becomes "{}" |
| Sheet.DecodeResponse | services/googleSheetsService.ts:38-62 | the envelope error is raised exactly when nothing non-empty is extracted, the JSON error exactly when the payload does not parse, the no-data error exactly when it parses without a table of rows; otherwise the result is processData of the decoded, filtered rows |
| Sheet.EmptyRowsIsEmptyDataset | services/googleSheetsService.ts:45-62 | a present but empty rows array gives an empty dataset, not an error |
| Filters.Candidates | App.tsx:56-65 | the list the filter runs over; stated by Filters.BlankQueryKeepsAll |
| Filters.MatchesRegion | App.tsx:69 | the region selector; stated by Filters.FilterVideosSpec and Filters.NoSelectionKeepsCandidates |
| Filters.MatchesTime | App.tsx:73-88 | the time-range selector; stated by the "week", "month", "3months" and "since_august" lemmas below |
| Filters.FilterVideos | App.tsx:55-94 | the `filteredVideos` memo; stated by Filters.FilterVideosSpec |
| Filters.BlankQueryKeepsAll | App.tsx:57-66 | a whitespace-only query, or no videos and hence no search index, filters every video; a real query with data filters the search hits |
| Filters.FilterVideosSpec | App.tsx:68-93 | the visible videos are exactly the candidates that pass both selectors, in candidate order, each as often as it is a candidate |
| Filters.NoSelectionKeepsCandidates | App.tsx:69-89 | region "All" with "all" or any unrecognised range keeps every candidate |
| Filters.WeekIsSevenDays | App.tsx:74-76 | "week" keeps exactly the videos from seven days before today onwards |
| Filters.WeekStart | App.tsx:75 | `oneWeekAgo`; stated by Filters.WeekIsSevenDays |
| Filters.MonthIsCalendarMonth | App.tsx:77-78 | "month" keeps exactly the videos from the first to the last day of today's month |
| Filters.MonthKeepsFirstDropsDayBefore | App.tsx:78 | "month" keeps the first of the month and drops the day before it |
| Filters.ThreeMonthsSpan | App.tsx:79-81 | "3months" reaches back between 89 and 92 days |
| Filters.ThreeMonthsStartDay | App.tsx:80 | the start of "3months" is today's day of month counted from the first of the month three months back, in the previous year for January to March |
| Filters.ThreeMonthsReadBack | App.tsx:80 | that start reads back as today's day of month three months back when that month has the day, always so for January to March, and otherwise as the surplus day of the following month (31 May gives 2 or 3 March) |
| Filters.ThreeMonthsStart | App.tsx:80 | `threeMonthsAgo`; stated by Filters.ThreeMonthsStartDay, Filters.ThreeMonthsReadBack and Filters.ThreeMonthsSpan |
| Filters.AugustIsLatestAugustFirst | App.tsx:82-88 | "since_august" starts at the latest 1 August on or before today |
| Filters.AugustStart | App.tsx:83-87 | `targetAugust`; stated by Filters.AugustIsLatestAugustFirst |
| Filters.AugustBeforeAugust | App.tsx:83-88 | on 1 May the range starts on 1 August of the year before |
| Filters.AugustAfterAugust | App.tsx:83-88 | on 1 September the range starts on 1 August of the same year |
| Filters.GroupBy | App.tsx:96-105 | the `reduce` into month groups; stated by Filters.GroupHeadings and Filters.GroupMembers |
| Filters.MonthLabel | App.tsx:98 | the `groupKey`; stated by DateFormat.MonthYearLabelIff |
| Filters.GroupByMonth | App.tsx:96-105 | the `groupedVideos` memo; stated by Filters.GroupHeadings, Filters.GroupMembers and Filters.SectionsCoverVisible |
| Filters.FindGroup | App.tsx:99 | the lookup finds the group with a heading exactly when one exists |
| Filters.GroupHeadings | App.tsx:96-120 | the headings are the distinct keys in order of first appearance |
| Filters.GroupMembers | App.tsx:97-104 | each group holds exactly the videos with its heading, in list order |
| Filters.GroupsCoverContiguous | App.tsx:96-120 | when equal keys are adjacent, the groups concatenate back to the list |
| Filters.InterleavedKeysRegroup | App.tsx:96-120 | when a key comes back after another, the groups reorder the list |
| Filters.NewestFirstIsContiguous | App.tsx:98 | in a newest-first list, videos with the same month heading are adjacent |
| Filters.SectionsCoverVisible | App.tsx:56-120 | with a blank search, the month sections show every visible video once, in processData order |
| VideoCard.InitialThumbnail | components/VideoCard.tsx:29 | the first URL a card tries, the maxres tier; stated by VideoCard.FailuresFollowTiers at failure 0 |
| VideoCard.ThumbUrl | components/VideoCard.tsx:29-36 | the `i.ytimg.com` URL template; stated by VideoCard.FileInUrl and VideoCard.UrlsAreRecognised |
| VideoCard.OnThumbnailError | components/VideoCard.tsx:31-41 | handleThumbnailError as written; stated by VideoCard.HandlerFollowsTiers and VideoCard.StuckOnStandardQuality |
| VideoCard.RegionColor | components/VideoCard.tsx:26 | the badge lookup with its DEFAULT fallback; stated by VideoCard.RegionColorLookup |
| VideoCard.NextTier | components/VideoCard.tsx:32 | each failure moves one tier down the chain, and the placeholder stays put |
| VideoCard.TierAfter | components/VideoCard.tsx:29-40 | from the third failure on, the intended chain is at the placeholder |
| VideoCard.TiersAreVisitedInOrder | components/VideoCard.tsx:29-40 | failures visit maxres, sd, hq and placeholder in that order |
| VideoCard.FileInUrl | components/VideoCard.tsx:33-36 | a thumbnail URL contains its own file name |
| VideoCard.UrlsAreRecognised | components/VideoCard.tsx:33-39 | for an id without either tested name, no URL contains a name tested before its own |
| VideoCard.HandlerFollowsTiers | components/VideoCard.tsx:31-41 | for such an id, the handler steps each URL to the next tier's URL, and the placeholder to itself |
| VideoCard.FailuresFollowTiers | components/VideoCard.tsx:29-41 | for such an id, the n-th failure shows the n-th tier, and the placeholder from the third failure on |
| VideoCard.AfterFailures | components/VideoCard.tsx:29-41 | the handler applied after each of `n` failures; stated by VideoCard.FailuresFollowTiers and VideoCard.StuckOnStandardQuality |
| VideoCard.StuckOnStandardQuality | components/VideoCard.tsx:33-34 | an id containing "maxresdefault.jpg" keeps the card on the standard-quality URL after every failure |
| VideoCard.FileNameAsId | components/VideoCard.tsx:29-34 | the id "maxresdefault.jpg" is such an id |
| VideoCard.RegionColorLookup | components/VideoCard.tsx:26 | a listed region gets its own classes and any other region the default |
| VideoCard.RegionBadges | constants.ts:8-19 | Taiwan's badge is the default grey that unknown regions get; every other named region has a non-default badge |

## Left out

- Network I/O is not modelled: `fetch`, the HTTP status check, `response.text()` and the error logging. The pipeline starts from the response text.
- `JSON.parse`, `Number(string)`, `new Date(string)` and `String(date)` are host behaviour. Each is a parameter of `Host`, not a definition.
- Numbers are integers. Fractional ranks, NaN other than as `None`, and the exponent notation `String` uses for huge numbers are not modelled.
- Time of day and time zones are not modelled: every date is a local midnight. Host-parsed dates are taken as day numbers.
- The 8.64e15 ms limit of `Date` is not modelled: day numbers are unbounded.
- The Fuse.js fuzzy search is an external library. Its hit list is the `searchHits` parameter, and the `fuse` index exists exactly when there is at least one video.
- `App.tsx` calls `new Date()` once per video. The model reads one `now` for the whole filter, so a filter that runs across midnight is out of scope.
- Polling with `setInterval` every `REFRESH_INTERVAL`, React state, memoisation, loading and error rendering, and framer-motion animation are not modelled.
- The `Controls`, `Header`, `Footer`, `Spinner` and icon components are presentation only.
- `REGION_COLORS` lookups of inherited object keys such as "toString" are not modelled: a region is only looked up among the table's own keys.
- The region sort compares Unicode scalar values. JavaScript compares UTF-16 code units, and the two orders differ only when a character outside the Basic Multilingual Plane is compared with one from U+E000 to U+FFFF.
- `DateFormat.MonthYearLabel` spells a year as a signed decimal. Years before 1 CE are rendered differently by `toLocaleString`.
- Filters.WeekIsSevenDays: proved for years outside 0-99. For years 0-99 the `Date` constructor reads the year as 1900 plus the year; `Filters.WeekStart` models this but the lemma does not cover it.
- Filters.ThreeMonthsSpan: proved for years outside 0-99, for the same reason.
- Filters.ThreeMonthsStartDay: proved for years outside 0-99, for the same reason.
- Filters.ThreeMonthsReadBack: proved for years outside 0-99, for the same reason.
- Filters.AugustIsLatestAugustFirst: proved for years outside 0-99, for the same reason.
- Filters.AugustBeforeAugust: proved for years outside 0-99, for the same reason.
- Filters.AugustAfterAugust: proved for years outside 0-99, for the same reason.
- Filters.GroupsCoverContiguous: the groups concatenate back to the list only when equal month headings are adjacent. That always holds without a search, and the lemma assumes it. A search ranks by score, so a result list can interleave months; `Filters.InterleavedKeysRegroup` shows the reordering the sections then make.

## Findings

| source | as written | input that shows it | evidently intended | confidence | as-written member | corrected member |
|---|---|---|---|---|---|---|
| components/VideoCard.tsx:33-36 | the next thumbnail is chosen by testing whether the whole current URL contains `maxresdefault.jpg` or `sddefault.jpg`, and that URL also contains the video id | video id `maxresdefault.jpg`: after the first failure the card shows `.../vi/maxresdefault.jpg/sddefault.jpg`, and every later failure picks that same URL again, so the placeholder never appears | step through maxres, sd, hq and placeholder by the card's position in the chain, whatever the id | not executed; ids come from the sheet unchecked, but real YouTube ids contain no `.` | VideoCard.StuckOnStandardQuality | VideoCard.FailuresFollowTiers |

The handler as written is `VideoCard.OnThumbnailError`, and `VideoCard.AfterFailures` repeats it. The corrected chain is `VideoCard.NextTier` with `VideoCard.TierUrl`; it keeps the tier as explicit state, so the id cannot matter. `VideoCard.FailuresFollowTiers` proves the two agree for every id that contains neither file name. `VideoCard.StuckOnStandardQuality` proves they part for every id that contains `maxresdefault.jpg`.

Three behaviours of the code that a reader might not expect, all of which the model follows:
- An empty `rows` array is not an error. The check at services/googleSheetsService.ts:45 only rejects a missing array (`Sheet.EmptyRowsIsEmptyDataset`).
- `String(x) || ''` never falls back for a missing cell, because `String(undefined)` is "undefined" (`Sheet.MissingIdIsUndefined`).
- Concatenating the month sections gives back the filtered list only when months are contiguous (`Filters.GroupsCoverContiguous`, `Filters.InterleavedKeysRegroup`).

=== FILE: calendar.dfy ===
/**
 The proleptic Gregorian calendar the way JavaScript's `Date` sees it
 (ECMA-262, section 21.4.1 "Time Values and Time Range"), one day at a time.

 A date is an integer day number: the number of days since 1970-01-01, the
 day of the epoch sentinel `new Date(0)`. Months are zero-indexed (0 is
 January) as in `Date.prototype.getMonth`. Time of day and time zones are
 not modelled: every date is a local midnight.
 */
module Calendar {

  /** Days since 1970-01-01. */
  type Day = int

  /** The epoch sentinel `new Date(0)`. */
  const Epoch: Day := 0

  predicate IsLeap(y: int) {
    (y % 4 == 0 && y % 100 != 0) || y % 400 == 0
  }

  function DaysInYear(y: int): int {
    if IsLeap(y) then 366 else 365
  }

  /** DayFromYear of ECMA-262: the day number of January 1st of year `y`. */
  function DayFromYear(y: int): Day {
    365 * (y - 1970) + (y - 1969) / 4 - (y - 1901) / 100 + (y - 1601) / 400
  }

  function DaysInMonth(y: int, m: int): int
    requires 0 <= m < 12
  {
    if m == 1 then (if IsLeap(y) then 29 else 28)
    else if m == 3 || m == 5 || m == 8 || m == 10 then 30
    else 31
  }

  /** Days of year `y` that precede the first of zero-indexed month `m`; `m == 12` gives the year length. */
  function DaysBeforeMonth(y: int, m: int): int
    requires 0 <= m <= 12
  {
    var common :=
      if m == 0 then 0 else if m == 1 then 31 else if m == 2 then 59
      else if m == 3 then 90 else if m == 4 then 120 else if m == 5 then 151
      else if m == 6 then 181 else if m == 7 then 212 else if m == 8 then 243
      else if m == 9 then 273 else if m == 10 then 304 else if m == 11 then 334
      else 365;
    if m >= 2 && IsLeap(y) then common + 1 else common
  }

  /** A calendar date with an in-range month and day. */
  predicate ValidDate(y: int, m: int, d: int) {
    0 <= m < 12 && 1 <= d <= DaysInMonth(y, m)
  }

  /**
   The day number of day `d` of month `m` of year `y`. The day is not range
   checked: day 0 is the last day of the previous month, day 32 spills into
   the next, exactly as in ECMA-262's MakeDay.
   */
  function DayNumber(y: int, m: int, d: int): Day
    requires 0 <= m < 12
  {
    DayFromYear(y) + DaysBeforeMonth(y, m) + d - 1
  }

  /** MakeDay of ECMA-262: out-of-range months roll over into neighbouring years (floor division). */
  function MakeDay(y: int, m: int, d: int): Day {
    DayNumber(y + m / 12, m % 12, d)
  }

  /** `new Date(y, m, d)`: MakeDay after the constructor's rule that years 0 to 99 mean 1900 to 1999. */
  function JsDate(y: int, m: int, d: int): Day {
    var fullYear := if 0 <= y <= 99 then 1900 + y else y;
    MakeDay(fullYear, m, d)
  }

  /** For a year outside 0 to 99 and an in-range month, `new Date(y, m, d)` is day `d` of that month. */
  lemma FullYearDate(y: int, m: int, d: int)
    requires !(0 <= y <= 99) && 0 <= m < 12
    ensures JsDate(y, m, d) == DayNumber(y, m, d)
  {
    InRangeMonth(y, m, d);
  }

  /** With an in-range month MakeDay rolls nothing over. */
  lemma InRangeMonth(y: int, m: int, d: int)
    requires 0 <= m < 12
    ensures MakeDay(y, m, d) == DayNumber(y, m, d)
  {
    assert m / 12 == 0 && m % 12 == m;
  }

  // ---------------------------------------------------------------------------
  // Reading a day number back: getFullYear, getMonth, getDate.

  lemma {:induction false} YearLength(y: int)
    ensures DayFromYear(y + 1) - DayFromYear(y) == DaysInYear(y)
    ensures DaysBeforeMonth(y, 12) == DaysInYear(y)
  {
    DivStep(y - 1969, 4, y, 492);
    DivStep(y - 1901, 100, y, 19);
    DivStep(y - 1601, 400, y, 4);
  }

  /** Moving `a` up by one raises `a / k` exactly when `a + 1` is a multiple of `k`, that is when `y` is. */
  lemma DivStep(a: int, k: int, y: int, q: int)
    requires k > 0 && a + 1 == y - k * q
    ensures (a + 1) / k - a / k == (if y % k == 0 then 1 else 0)
  {
    var r := a + 1;
    assert r % k == y % k by { ModShift(y, k, q); }
    assert r / k * k + r % k == r;
    assert a / k * k + a % k == a;
    if r % k == 0 {
      assert a == (r / k - 1) * k + (k - 1);
      DivUnique(a, k, r / k - 1, k - 1);
    } else {
      assert a == r / k * k + (r % k - 1);
      DivUnique(a, k, r / k, r % k - 1);
    }
  }

  lemma ModShift(y: int, k: int, q: int)
    requires k > 0
    ensures (y - k * q) % k == y % k
  {
    DivUnique(y - k * q, k, y / k - q, y % k);
  }

  /** Euclidean division is determined by its quotient-remainder equation. */
  lemma DivUnique(a: int, k: int, d: int, m: int)
    requires k > 0 && 0 <= m < k && a == d * k + m
    ensures a / k == d && a % k == m
  {
    var d0, m0 := a / k, a % k;
    var t := d0 - d;
    assert t * k == d0 * k - d * k;
    assert t * k == m - m0;
    if t >= 1 {
      MulAtLeast(t, k);
      assert false;
    } else if t <= -1 {
      MulAtLeast(-t, k);
      assert false;
    }
  }

  lemma MulAtLeast(t: int, k: int)
    requires t >= 1 && k > 0
    ensures t * k >= k
  {
    assert t * k == (t - 1) * k + k;
  }

  lemma {:induction false} DayFromYearMonotone(a: int, b: int)
    requires a <= b
    ensures DayFromYear(a) <= DayFromYear(b)
    ensures a < b ==> DayFromYear(a + 1) <= DayFromYear(b)
    decreases b - a
  {
    YearLength(a);
    if a < b {
      DayFromYearMonotone(a + 1, b);
    }
  }

  /** Every year has at least one day. */
  lemma YearStep(y: int)
    ensures DayFromYear(y) < DayFromYear(y + 1)
  {
    YearLength(y);
  }

  /** The year containing day `z`, searched upward from year `y`. */
  function YearUp(y: int, z: Day): (r: int)
    requires DayFromYear(y) <= z
    ensures DayFromYear(r) <= z < DayFromYear(r + 1)
    decreases z - DayFromYear(y)
  {
    YearStep(y);
    if z < DayFromYear(y + 1) then y else YearUp(y + 1, z)
  }

  /** The year containing day `z`, searched downward from year `y`. */
  function YearDown(y: int, z: Day): (r: int)
    requires z < DayFromYear(y + 1)
    ensures DayFromYear(r) <= z < DayFromYear(r + 1)
    decreases DayFromYear(y + 1) - z
  {
    YearStep(y);
    if DayFromYear(y) <= z then y else YearDown(y - 1, z)
  }

  /** YearFromTime of ECMA-262 (`getFullYear`). */
  function YearOf(z: Day): int {
    EpochYear();
    if z >= Epoch then YearUp(1970, z) else YearDown(1969, z)
  }

  /** 1970 begins at the epoch. */
  lemma EpochYear()
    ensures DayFromYear(1970) == Epoch
  {
  }

  lemma YearOfBounds(z: Day)
    ensures DayFromYear(YearOf(z)) <= z < DayFromYear(YearOf(z) + 1)
  {
    EpochYear();
    if z >= Epoch {
      var r := YearUp(1970, z);
      assert YearOf(z) == r;
    } else {
      var r := YearDown(1969, z);
      assert YearOf(z) == r;
    }
  }

  /** The month of day-of-year `doy` in year `y`, searched upward from month `m`. */
  function MonthFrom(y: int, doy: int, m: int): (r: int)
    requires 0 <= m < 12
    requires DaysBeforeMonth(y, m) <= doy < DaysBeforeMonth(y, 12)
    ensures m <= r < 12
    ensures DaysBeforeMonth(y, r) <= doy < DaysBeforeMonth(y, r + 1)
    decreases 12 - m
  {
    if doy < DaysBeforeMonth(y, m + 1) then m else MonthFrom(y, doy, m + 1)
  }

  /** MonthFromTime of ECMA-262 (`getMonth`), zero-indexed. */
  function MonthOf(z: Day): int
    ensures 0 <= MonthOf(z) < 12
  {
    var y := YearOf(z);
    YearOfBounds(z);
    DayOfYearBounds(y, z);
    MonthFrom(y, z - DayFromYear(y), 0)
  }

  /** A day of year `y` lies between the first and the last of its months. */
  lemma DayOfYearBounds(y: int, z: Day)
    requires DayFromYear(y) <= z < DayFromYear(y + 1)
    ensures DaysBeforeMonth(y, 0) <= z - DayFromYear(y) < DaysBeforeMonth(y, 12)
  {
    YearLength(y);
  }

  /** DateFromTime of ECMA-262 (`getDate`), one-based. */
  function DateOf(z: Day): int {
    var y := YearOf(z);
    z - DayFromYear(y) - DaysBeforeMonth(y, MonthOf(z)) + 1
  }

  /** Every day number reads back as a valid calendar date that denotes it. */
  lemma CivilOf(z: Day)
    ensures ValidDate(YearOf(z), MonthOf(z), DateOf(z))
    ensures DayNumber(YearOf(z), MonthOf(z), DateOf(z)) == z
  {
    var y := YearOf(z);
    YearLength(y);
    MonthLength(y, MonthOf(z));
  }

  /** The year containing a day is unique. */
  lemma {:induction false} YearUnique(z: Day, y: int)
    requires DayFromYear(y) <= z < DayFromYear(y + 1)
    ensures YearOf(z) == y
  {
    var r := YearOf(z);
    if r < y {
      DayFromYearMonotone(r, y);
    } else if y < r {
      DayFromYearMonotone(y, r);
    }
  }

  lemma MonthLength(y: int, m: int)
    requires 0 <= m < 12
    ensures DaysBeforeMonth(y, m + 1) - DaysBeforeMonth(y, m) == DaysInMonth(y, m)
  {
  }

  lemma MonthsMonotone(y: int, a: int, b: int)
    requires 0 <= a <= b <= 12
    ensures DaysBeforeMonth(y, a) <= DaysBeforeMonth(y, b)
    ensures a < b ==> DaysBeforeMonth(y, a + 1) <= DaysBeforeMonth(y, b)
  {
  }

  /** A valid calendar date reads back unchanged: getFullYear, getMonth and getDate invert DayNumber. */
  lemma {:induction false} DayNumberRoundTrip(y: int, m: int, d: int)
    requires ValidDate(y, m, d)
    ensures YearOf(DayNumber(y, m, d)) == y
    ensures MonthOf(DayNumber(y, m, d)) == m
    ensures DateOf(DayNumber(y, m, d)) == d
  {
    var z := DayNumber(y, m, d);
    YearLength(y);
    MonthLength(y, m);
    MonthsMonotone(y, m + 1, 12);
    YearUnique(z, y);
    var r := MonthOf(z);
    if r < m {
      MonthsMonotone(y, r, m);
    } else if m < r {
      MonthsMonotone(y, m, r);
    }
  }

  /** Later days never fall in an earlier (year, month). */
  lemma YearMonthMonotone(z1: Day, z2: Day)
    requires z1 <= z2
    ensures YearOf(z1) <= YearOf(z2)
    ensures YearOf(z1) == YearOf(z2) ==> MonthOf(z1) <= MonthOf(z2)
  {
    YearMonotone(z1, z2);
    if YearOf(z1) == YearOf(z2) {
      MonthMonotone(z1, z2);
    }
  }

  lemma YearMonotone(z1: Day, z2: Day)
    requires z1 <= z2
    ensures YearOf(z1) <= YearOf(z2)
  {
    var y1, y2 := YearOf(z1), YearOf(z2);
    YearOfBounds(z1);
    YearOfBounds(z2);
    if y2 < y1 {
      DayFromYearMonotone(y2, y1);
      assert false;
    }
  }

  lemma MonthMonotone(z1: Day, z2: Day)
    requires z1 <= z2 && YearOf(z1) == YearOf(z2)
    ensures MonthOf(z1) <= MonthOf(z2)
  {
    MonthOfBounds(z1);
    MonthOfBounds(z2);
    var m1, m2 := MonthOf(z1), MonthOf(z2);
    if m2 < m1 {
      MonthsMonotone(YearOf(z1), m2, m1);
      assert false;
    }
  }

  /** The month a day falls in, as day-of-year bounds. */
  lemma MonthOfBounds(z: Day)
    ensures DaysBeforeMonth(YearOf(z), MonthOf(z)) <= z - DayFromYear(YearOf(z)) < DaysBeforeMonth(YearOf(z), MonthOf(z) + 1)
  {
    var y := YearOf(z);
    YearLength(y);
  }

  /** A date with the same zero-indexed month as `z` in the same year is within `z`'s month, and conversely. */
  lemma {:induction false} SameMonthIffInMonth(z: Day, v: Day)
    ensures (YearOf(v) == YearOf(z) && MonthOf(v) == MonthOf(z))
        <==> (DayNumber(YearOf(z), MonthOf(z), 1) <= v
              < DayNumber(YearOf(z), MonthOf(z), 1) + DaysInMonth(YearOf(z), MonthOf(z)))
  {
    var y, m := YearOf(z), MonthOf(z);
    var start := DayNumber(y, m, 1);
    if start <= v < start + DaysInMonth(y, m) {
      InMonthHasMonth(y, m, v);
    }
    if YearOf(v) == y && MonthOf(v) == m {
      MonthHasInMonth(v);
    }
  }

  /** A day inside a month's span reads back as that year and month. */
  lemma InMonthHasMonth(y: int, m: int, v: Day)
    requires 0 <= m < 12
    requires DayNumber(y, m, 1) <= v < DayNumber(y, m, 1) + DaysInMonth(y, m)
    ensures YearOf(v) == y && MonthOf(v) == m
  {
    var d := v - DayNumber(y, m, 1) + 1;
    assert DayNumber(y, m, d) == v;
    DayNumberRoundTrip(y, m, d);
  }

  /** Every day lies inside the span of its own month. */
  lemma MonthHasInMonth(v: Day)
    ensures DayNumber(YearOf(v), MonthOf(v), 1) <= v < DayNumber(YearOf(v), MonthOf(v), 1) + DaysInMonth(YearOf(v), MonthOf(v))
  {
    CivilOf(v);
  }
}

=== FILE: dateformat.dfy ===
/**
 The two `en-US` renderings of a date that the dashboard displays: the
 month-year heading that groups cards ("March 2024") and the short date on
 each card ("Mar 15, 2024").
 */
module DateFormat {
  import opened Calendar
  import opened Text

  const LongMonthNames: seq<string> := [
    "January", "February", "March", "April", "May", "June",
    "July", "August", "September", "October", "November", "December"]

  const ShortMonthNames: seq<string> := [
    "Jan", "Feb", "Mar", "Apr", "May", "Jun",
    "Jul", "Aug", "Sep", "Oct", "Nov", "Dec"]

  /** `toLocaleString('en-US', { month: 'long', year: 'numeric' })`. */
  function MonthYearLabel(z: Day): string {
    LongMonthNames[MonthOf(z)] + " " + IntToDecimal(YearOf(z))
  }

  /** `toLocaleDateString('en-US', { year: 'numeric', month: 'short', day: 'numeric' })`. */
  function ShortDateLabel(z: Day): string {
    CivilOf(z);
    ShortMonthNames[MonthOf(z)] + " " + NatToDecimal(DateOf(z)) + ", " + IntToDecimal(YearOf(z))
  }

  predicate NoSpace(s: string) {
    forall i :: 0 <= i < |s| ==> s[i] != ' '
  }

  /** A space-free word followed by a space can be split off again. */
  lemma SplitAtSpace(a: string, x: string, b: string, y: string)
    requires NoSpace(a) && NoSpace(b)
    requires a + " " + x == b + " " + y
    ensures a == b && x == y
  {
    var l := a + " " + x;
    FirstSpaceAfterWord(a, x);
    FirstSpaceAfterWord(b, y);
    assert a == l[..|a|] == b;
    assert x == l[|a| + 1..] == y;
  }

  /** The index of the first space in `s`, or `|s|` when there is none. */
  function FirstSpace(s: string): nat {
    if |s| == 0 || s[0] == ' ' then 0 else 1 + FirstSpace(s[1..])
  }

  lemma {:induction false} FirstSpaceAfterWord(a: string, x: string)
    requires NoSpace(a)
    ensures FirstSpace(a + " " + x) == |a|
  {
    if |a| > 0 {
      assert (a + " " + x)[1..] == a[1..] + " " + x;
      FirstSpaceAfterWord(a[1..], x);
    }
  }

  lemma LongMonthNamesDistinct(m1: int, m2: int)
    requires 0 <= m1 < 12 && 0 <= m2 < 12
    ensures NoSpace(LongMonthNames[m1])
    ensures LongMonthNames[m1] == LongMonthNames[m2] ==> m1 == m2
  {
  }

  /** Two days get the same month-year heading exactly when they share year and month. */
  lemma {:induction false} MonthYearLabelIff(z1: Day, z2: Day)
    ensures MonthYearLabel(z1) == MonthYearLabel(z2)
        <==> (YearOf(z1) == YearOf(z2) && MonthOf(z1) == MonthOf(z2))
  {
    if MonthYearLabel(z1) == MonthYearLabel(z2) {
      LongMonthNamesDistinct(MonthOf(z1), MonthOf(z2));
      LongMonthNamesDistinct(MonthOf(z2), MonthOf(z1));
      SplitAtSpace(LongMonthNames[MonthOf(z1)], IntToDecimal(YearOf(z1)),
                   LongMonthNames[MonthOf(z2)], IntToDecimal(YearOf(z2)));
      IntToDecimalInjective(YearOf(z1), YearOf(z2));
    }
  }

  lemma ShortMonthNamesDistinct(m1: int, m2: int)
    requires 0 <= m1 < 12 && 0 <= m2 < 12
    ensures NoSpace(ShortMonthNames[m1])
    ensures ShortMonthNames[m1] == ShortMonthNames[m2] ==> m1 == m2
  {
  }

  /** Distinct natural numbers are spelled differently. */
  lemma NatToDecimalInjective(a: nat, b: nat)
    requires NatToDecimal(a) == NatToDecimal(b)
    ensures a == b
  {
    DecimalRoundTrip(a);
    DecimalRoundTrip(b);
  }

  /** A card date "Mon D, Y" splits back into its month name, day and year. */
  lemma {:induction false} SplitShortDate(n1: string, d1: string, y1: string, n2: string, d2: string, y2: string)
    requires NoSpace(n1) && NoSpace(n2) && AllDigits(d1) && AllDigits(d2)
    requires n1 + " " + d1 + ", " + y1 == n2 + " " + d2 + ", " + y2
    ensures n1 == n2 && d1 == d2 && y1 == y2
  {
    assert n1 + " " + d1 + ", " + y1 == n1 + " " + ((d1 + ",") + " " + y1);
    assert n2 + " " + d2 + ", " + y2 == n2 + " " + ((d2 + ",") + " " + y2);
    SplitAtSpace(n1, (d1 + ",") + " " + y1, n2, (d2 + ",") + " " + y2);
    assert NoSpace(d1 + ",") && NoSpace(d2 + ",");
    SplitAtSpace(d1 + ",", y1, d2 + ",", y2);
    assert d1 == (d1 + ",")[..|d1|];
    assert d2 == (d2 + ",")[..|d2|];
  }

  /** Two days get the same card date exactly when they are the same day. */
  lemma {:induction false} ShortDateLabelIff(z1: Day, z2: Day)
    ensures ShortDateLabel(z1) == ShortDateLabel(z2) <==> z1 == z2
  {
    if ShortDateLabel(z1) == ShortDateLabel(z2) {
      CivilOf(z1);
      CivilOf(z2);
      ShortMonthNamesDistinct(MonthOf(z1), MonthOf(z2));
      ShortMonthNamesDistinct(MonthOf(z2), MonthOf(z1));
      SplitShortDate(ShortMonthNames[MonthOf(z1)], NatToDecimal(DateOf(z1)), IntToDecimal(YearOf(z1)),
                     ShortMonthNames[MonthOf(z2)], NatToDecimal(DateOf(z2)), IntToDecimal(YearOf(z2)));
      NatToDecimalInjective(DateOf(z1), DateOf(z2));
      IntToDecimalInjective(YearOf(z1), YearOf(z2));
    }
  }
}

=== FILE: filters.dfy ===
/**
 The view logic of App.tsx: which videos the dashboard shows for the current
 search, region and time range, and how it groups them under month headings.

 The clock is a parameter (`now`, a day number), read once for the whole
 filter. The fuzzy search is a parameter too: `searchHits` is whatever the
 search library returned for the query, in its ranking order.
 */
module Filters {
  import opened Wrappers
  import opened Calendar
  import opened Text
  import opened Types
  import opened Seqs
  import opened DateFormat
  import Merge

  // ---------------------------------------------------------------------------
  // Search and filter

  /** The list the filter runs over: the search hits when the query is not blank and there is data, else every video. */
  function Candidates(all: seq<Video>, query: string, searchHits: seq<Video>): seq<Video> {
    if Trim(query) != "" && |all| > 0 then searchHits else all
  }

  /** The region selector, where "All" means no restriction. */
  predicate MatchesRegion(selected: string, v: Video) {
    selected == "All" || v.bestRegion == selected
  }

  /** `new Date(Y, M, D - 7)` for today's Y, M and D. */
  function WeekStart(now: Day): Day {
    JsDate(YearOf(now), MonthOf(now), DateOf(now) - 7)
  }

  /** `new Date(Y, M - 3, D)` for today's Y, M and D. */
  function ThreeMonthsStart(now: Day): Day {
    JsDate(YearOf(now), MonthOf(now) - 3, DateOf(now))
  }

  /**
   `new Date(Y, 7, 1)`, moved to the previous year by `setFullYear(Y - 1)`
   when today is before it. `setFullYear` has no two-digit-year rule.
   */
  function AugustStart(now: Day): Day {
    var y := YearOf(now);
    if now < JsDate(y, 7, 1) then MakeDay(y - 1, 7, 1) else JsDate(y, 7, 1)
  }

  /** The time-range selector; an unrecognised range (such as "all") lets everything through. */
  predicate MatchesTime(now: Day, range: string, v: Video) {
    if range == "week" then v.publishedDate >= WeekStart(now)
    else if range == "month" then YearOf(v.publishedDate) == YearOf(now) && MonthOf(v.publishedDate) == MonthOf(now)
    else if range == "3months" then v.publishedDate >= ThreeMonthsStart(now)
    else if range == "since_august" then v.publishedDate >= AugustStart(now)
    else true
  }

  /** The `filteredVideos` memo of App.tsx. */
  function FilterVideos(all: seq<Video>, query: string, searchHits: seq<Video>,
                        region: string, range: string, now: Day): seq<Video> {
    Filter((v: Video) => MatchesRegion(region, v) && MatchesTime(now, range, v),
           Candidates(all, query, searchHits))
  }

  /**
   A blank query (only whitespace) searches nothing, and with no videos there
   is no search index: in both cases the filter runs over every video.
   Otherwise it runs over the search hits.
   */
  lemma BlankQueryKeepsAll(all: seq<Video>, query: string, searchHits: seq<Video>)
    ensures Candidates(all, query, searchHits) == all <== IsBlank(query)
    ensures |all| == 0 ==> Candidates(all, query, searchHits) == all
    ensures !IsBlank(query) && |all| > 0 ==> Candidates(all, query, searchHits) == searchHits
  {
    TrimEmptyIffBlank(query);
  }

  /**
   The visible videos are exactly the candidates that pass both selectors,
   in candidate order, each as often as it is a candidate.
   */
  lemma FilterVideosSpec(all: seq<Video>, query: string, searchHits: seq<Video>,
                         region: string, range: string, now: Day)
    ensures IsSubsequence(FilterVideos(all, query, searchHits, region, range, now),
                          Candidates(all, query, searchHits))
    ensures forall v :: v in FilterVideos(all, query, searchHits, region, range, now)
              <==> v in Candidates(all, query, searchHits)
                   && (region == "All" || v.bestRegion == region)
                   && MatchesTime(now, range, v)
    ensures forall v :: multiset(FilterVideos(all, query, searchHits, region, range, now))[v]
              == if MatchesRegion(region, v) && MatchesTime(now, range, v)
                 then multiset(Candidates(all, query, searchHits))[v] else 0
  {
    FilterSpec((v: Video) => MatchesRegion(region, v) && MatchesTime(now, range, v),
               Candidates(all, query, searchHits));
  }

  /** Region "All" with an unrecognised time range filters nothing out. */
  lemma NoSelectionKeepsCandidates(all: seq<Video>, query: string, searchHits: seq<Video>, range: string, now: Day)
    requires range != "week" && range != "month" && range != "3months" && range != "since_august"
    ensures FilterVideos(all, query, searchHits, "All", range, now) == Candidates(all, query, searchHits)
  {
    FilterAll((v: Video) => MatchesRegion("All", v) && MatchesTime(now, range, v),
              Candidates(all, query, searchHits));
  }

  lemma {:induction false} FilterAll(p: Video -> bool, xs: seq<Video>)
    requires forall k :: 0 <= k < |xs| ==> p(xs[k])
    ensures Filter(p, xs) == xs
  {
    if |xs| > 0 {
      FilterAll(p, xs[1..]);
      assert xs == [xs[0]] + xs[1..];
    }
  }

  // ---------------------------------------------------------------------------
  // What each time range means

  /** Years 0 to 99, which `new Date(y, …)` reads as 1900 to 1999, are out of the way. */
  predicate FullYear(y: int) {
    !(0 <= y <= 99)
  }

  /** Today as a calendar date, read back through JsDate. */
  lemma TodayAsJsDate(now: Day, dd: int)
    requires FullYear(YearOf(now))
    ensures JsDate(YearOf(now), MonthOf(now), DateOf(now) + dd) == now + dd
  {
    var y, m, d := YearOf(now), MonthOf(now), DateOf(now);
    CivilOf(now);
    FullYearDate(y, m, d + dd);
    assert DayNumber(y, m, d + dd) == DayNumber(y, m, d) + dd;
  }

  /** "week" keeps the videos of the last seven days and today. */
  lemma WeekIsSevenDays(now: Day, v: Video)
    requires FullYear(YearOf(now))
    ensures WeekStart(now) == now - 7
    ensures MatchesTime(now, "week", v) <==> now - 7 <= v.publishedDate
  {
    TodayAsJsDate(now, -7);
  }

  /** "month" keeps exactly the days from the first to the last of the current month. */
  lemma MonthIsCalendarMonth(now: Day, v: Video)
    ensures MatchesTime(now, "month", v)
        <==> (DayNumber(YearOf(now), MonthOf(now), 1) <= v.publishedDate
              < DayNumber(YearOf(now), MonthOf(now), 1) + DaysInMonth(YearOf(now), MonthOf(now)))
  {
    SameMonthIffInMonth(now, v.publishedDate);
  }

  /** "3months" reaches back between 89 and 92 days, whatever the day of the month. */
  lemma ThreeMonthsSpan(now: Day)
    requires FullYear(YearOf(now))
    ensures now - 92 <= ThreeMonthsStart(now) <= now - 89
  {
    CivilOf(now);
    var y, m, d := YearOf(now), MonthOf(now), DateOf(now);
    ThreeMonthsStartIs(now, y, m, d);
    ThreeMonthsBack(now, y, m, d);
  }

  /** The start of "3months", read off today's civil date. */
  lemma ThreeMonthsStartIs(now: Day, y: int, m: int, d: int)
    requires y == YearOf(now) && m == MonthOf(now) && d == DateOf(now)
    ensures ThreeMonthsStart(now) == JsDate(y, m - 3, d)
  {
  }

  /** Three months before day `d` of month `m` lies 89 to 92 days back. */
  lemma ThreeMonthsBack(now: Day, y: int, m: int, d: int)
    requires FullYear(y) && 0 <= m < 12 && DayNumber(y, m, d) == now
    ensures now - 92 <= JsDate(y, m - 3, d) <= now - 89
  {
    ThreeMonthGap(y, m);
    ThreeMonthsOnCalendar(y, m, d);
    if m >= 3 {
      assert JsDate(y, m - 3, d) == DayNumber(y, m - 3, d);
    } else {
      assert JsDate(y, m - 3, d) == DayNumber(y - 1, m + 9, d);
      YearLength(y - 1);
    }
  }

  /**
   The (year, month) three months before month `m` of year `y`, counted on
   the calendar: the same year from April on, the year before for January
   to March.
   */
  function ThreeMonthsBefore(y: int, m: int): (int, int)
    requires 0 <= m < 12
  {
    if m >= 3 then (y, m - 3) else (y - 1, m + 9)
  }

  /** `new Date(Y, M - 3, D)` is day `D` of the month three months back, counted from that month's first day. */
  lemma ThreeMonthsOnCalendar(y: int, m: int, d: int)
    requires FullYear(y) && 0 <= m < 12
    ensures JsDate(y, m - 3, d) == DayNumber(ThreeMonthsBefore(y, m).0, ThreeMonthsBefore(y, m).1, d)
  {
    if m >= 3 {
      assert (m - 3) / 12 == 0 && (m - 3) % 12 == m - 3;
    } else {
      assert (m - 3) / 12 == -1 && (m - 3) % 12 == m + 9;
    }
  }

  /**
   The start of "3months" is today's day of month in the month three months
   back, as MakeDay counts it: a day that month lacks spills into the next.
   */
  lemma ThreeMonthsStartDay(now: Day)
    requires FullYear(YearOf(now))
    ensures ThreeMonthsStart(now)
         == DayNumber(ThreeMonthsBefore(YearOf(now), MonthOf(now)).0,
                      ThreeMonthsBefore(YearOf(now), MonthOf(now)).1, DateOf(now))
  {
    var y, m, d := YearOf(now), MonthOf(now), DateOf(now);
    ThreeMonthsStartIs(now, y, m, d);
    ThreeMonthsOnCalendar(y, m, d);
  }

  /**
   Read back as a calendar date, the start of "3months" is today's day of
   month three months back when that month has the day (always so from
   January to March), and otherwise the day that many days into the month
   after it (31 May gives 3 March, or 2 March in a leap year).
   */
  lemma ThreeMonthsReadBack(now: Day)
    requires FullYear(YearOf(now))
    ensures var (py, pm) := ThreeMonthsBefore(YearOf(now), MonthOf(now));
            var s := ThreeMonthsStart(now);
            (MonthOf(now) < 3 ==> DateOf(now) <= DaysInMonth(py, pm))
            && (DateOf(now) <= DaysInMonth(py, pm) ==>
                  YearOf(s) == py && MonthOf(s) == pm && DateOf(s) == DateOf(now))
            && (DateOf(now) > DaysInMonth(py, pm) ==>
                  pm < 11 && YearOf(s) == py && MonthOf(s) == pm + 1
                  && DateOf(s) == DateOf(now) - DaysInMonth(py, pm))
  {
    CivilOf(now);
    ThreeMonthsStartDay(now);
    var y, m, d := YearOf(now), MonthOf(now), DateOf(now);
    var (py, pm) := ThreeMonthsBefore(y, m);
    ThreeMonthsCivil(y, m, d, py, pm, ThreeMonthsStart(now));
  }

  /** ThreeMonthsReadBack for an explicit valid date `(y, m, d)` and start `s`. */
  lemma ThreeMonthsCivil(y: int, m: int, d: int, py: int, pm: int, s: Day)
    requires ValidDate(y, m, d) && (py, pm) == ThreeMonthsBefore(y, m)
    requires s == DayNumber(py, pm, d)
    ensures m < 3 ==> d <= DaysInMonth(py, pm)
    ensures d <= DaysInMonth(py, pm) ==> YearOf(s) == py && MonthOf(s) == pm && DateOf(s) == d
    ensures d > DaysInMonth(py, pm) ==>
              pm < 11 && YearOf(s) == py && MonthOf(s) == pm + 1 && DateOf(s) == d - DaysInMonth(py, pm)
  {
    if d <= DaysInMonth(py, pm) {
      DayNumberRoundTrip(py, pm, d);
    } else {
      MonthLength(py, pm);
      assert s == DayNumber(py, pm + 1, d - DaysInMonth(py, pm));
      DayNumberRoundTrip(py, pm + 1, d - DaysInMonth(py, pm));
    }
  }

  /** The days between the same day of month three months apart. */
  lemma ThreeMonthGap(y: int, m: int)
    requires 0 <= m < 12
    ensures m >= 3 ==> 89 <= DaysBeforeMonth(y, m) - DaysBeforeMonth(y, m - 3) <= 92
    ensures m < 3 ==> 89 <= DaysInYear(y - 1) + DaysBeforeMonth(y, m) - DaysBeforeMonth(y - 1, m + 9) <= 92
  {
    NoConsecutiveLeapYears(y);
  }

  lemma NoConsecutiveLeapYears(y: int)
    ensures !(IsLeap(y - 1) && IsLeap(y))
  {
    if IsLeap(y - 1) && IsLeap(y) {
      LeapIsQuadrennial(y - 1);
      LeapIsQuadrennial(y);
      assert false;
    }
  }

  lemma LeapIsQuadrennial(y: int)
    requires IsLeap(y)
    ensures y == 4 * (y / 4)
  {
    if y % 400 == 0 {
      var q := y / 400;
      assert y == 4 * (100 * q);
    }
  }

  /**
   "since_august" starts at the latest August 1st on or before today: this
   year's once it has come, last year's before that.
   */
  lemma AugustIsLatestAugustFirst(now: Day, y: int)
    requires y == YearOf(now) && FullYear(y)
    ensures now < DayNumber(y, 7, 1) ==> AugustStart(now) == DayNumber(y - 1, 7, 1) <= now
    ensures DayNumber(y, 7, 1) <= now ==> AugustStart(now) == DayNumber(y, 7, 1) && now < DayNumber(y + 1, 7, 1)
  {
    if now < DayNumber(y, 7, 1) {
      BeforeAugust(now, y);
    } else {
      SinceAugust(now, y);
    }
  }

  /** Before this year's August 1st the range starts on last year's, which has passed. */
  lemma BeforeAugust(now: Day, y: int)
    requires y == YearOf(now) && FullYear(y) && now < DayNumber(y, 7, 1)
    ensures AugustStart(now) == DayNumber(y - 1, 7, 1) <= now
  {
    AugustStartOf(now, y);
    YearOfBounds(now);
    AugustInsideYear(y - 1);
  }

  /** From this year's August 1st on the range starts there, and next year's is still ahead. */
  lemma SinceAugust(now: Day, y: int)
    requires y == YearOf(now) && FullYear(y) && DayNumber(y, 7, 1) <= now
    ensures AugustStart(now) == DayNumber(y, 7, 1)
    ensures now < DayNumber(y + 1, 7, 1)
  {
    AugustStartOf(now, y);
    YearOfBounds(now);
    AugustInsideYear(y + 1);
  }

  /** The two candidate starts, with the two-digit-year rule ruled out. */
  lemma AugustStartOf(now: Day, y: int)
    requires y == YearOf(now) && FullYear(y)
    ensures AugustStart(now) == if now < DayNumber(y, 7, 1) then DayNumber(y - 1, 7, 1) else DayNumber(y, 7, 1)
  {
    FullYearDate(y, 7, 1);
    InRangeMonth(y - 1, 7, 1);
  }

  /** August 1st of year `y` falls inside year `y`. */
  lemma AugustInsideYear(y: int)
    ensures DayFromYear(y) <= DayNumber(y, 7, 1) < DayFromYear(y + 1)
  {
    YearLength(y);
    MonthsMonotone(y, 7, 12);
  }

  /** Before August: on 1 May of year y (1 May 2024, say) the range starts on 1 August of y - 1. */
  lemma AugustBeforeAugust(y: int, now: Day, v: Video)
    requires FullYear(y) && now == DayNumber(y, 4, 1)
    ensures AugustStart(now) == DayNumber(y - 1, 7, 1)
    ensures MatchesTime(now, "since_august", v) <==> DayNumber(y - 1, 7, 1) <= v.publishedDate
  {
    DayNumberRoundTrip(y, 4, 1);
    assert now < DayNumber(y, 7, 1);
    BeforeAugust(now, y);
    SinceAugustRange(now, v);
  }

  /** After August: on 1 September of year y (1 September 2024, say) the range starts on 1 August of y. */
  lemma AugustAfterAugust(y: int, now: Day, v: Video)
    requires FullYear(y) && now == DayNumber(y, 8, 1)
    ensures AugustStart(now) == DayNumber(y, 7, 1)
    ensures MatchesTime(now, "since_august", v) <==> DayNumber(y, 7, 1) <= v.publishedDate
  {
    DayNumberRoundTrip(y, 8, 1);
    SinceAugust(now, y);
    SinceAugustRange(now, v);
  }

  /** "since_august" keeps the videos from the range start on. */
  lemma SinceAugustRange(now: Day, v: Video)
    ensures MatchesTime(now, "since_august", v) <==> AugustStart(now) <= v.publishedDate
  {
  }

  /**
   On any day of a month (20 March 2024, say), "month" keeps the 1st of that
   month and drops the last day of the month before.
   */
  lemma MonthKeepsFirstDropsDayBefore(y: int, m: int, d: int, v: Video, w: Video)
    requires ValidDate(y, m, d)
    requires v.publishedDate == DayNumber(y, m, 1)
    requires w.publishedDate == DayNumber(y, m, 1) - 1
    ensures MatchesTime(DayNumber(y, m, d), "month", v)
    ensures !MatchesTime(DayNumber(y, m, d), "month", w)
  {
    var now := DayNumber(y, m, d);
    DayNumberRoundTrip(y, m, d);
    MonthIsCalendarMonth(now, v);
    MonthIsCalendarMonth(now, w);
  }

  // ---------------------------------------------------------------------------
  // Grouping under month headings

  /** A heading and the videos under it, in list order. */
  datatype Group = Group(heading: string, videos: seq<Video>)

  /** The heading a video is grouped under, such as "March 2024". */
  function MonthLabel(v: Video): string {
    MonthYearLabel(v.publishedDate)
  }

  function FindGroup(gs: seq<Group>, heading: string): (r: Option<nat>)
    ensures r.Some? ==> r.value < |gs| && gs[r.value].heading == heading
    ensures r.None? ==> forall i :: 0 <= i < |gs| ==> gs[i].heading != heading
  {
    if |gs| == 0 then None
    else if gs[0].heading == heading then Some(0)
    else match FindGroup(gs[1..], heading)
      case Some(i) => Some(i + 1)
      case None => None
  }

  /** One step of the `reduce`: push the video onto its heading's list, creating the list on first use. */
  function AddToGroup(gs: seq<Group>, v: Video, key: Video -> string): seq<Group> {
    match FindGroup(gs, key(v))
    case None => gs + [Group(key(v), [v])]
    case Some(i) => gs[i := Group(gs[i].heading, gs[i].videos + [v])]
  }

  /**
   The `reduce` into an object keyed by `key`, read back through
   `Object.entries`: headings in order of first use, which is the order of a
   plain object's keys when none of them is integer-like.
   */
  function GroupBy(vs: seq<Video>, key: Video -> string): seq<Group> {
    if |vs| == 0 then [] else AddToGroup(GroupBy(vs[..|vs| - 1], key), vs[|vs| - 1], key)
  }

  /** The `groupedVideos` memo of App.tsx: month headings never look like integers. */
  function GroupByMonth(vs: seq<Video>): seq<Group> {
    GroupBy(vs, MonthLabel)
  }

  function Headings(gs: seq<Group>): seq<string> {
    seq(|gs|, i requires 0 <= i < |gs| => gs[i].heading)
  }

  function Keys(vs: seq<Video>, key: Video -> string): seq<string> {
    seq(|vs|, i requires 0 <= i < |vs| => key(vs[i]))
  }

  /** The video lists of the groups, in heading order. */
  function Members(gs: seq<Group>): seq<seq<Video>> {
    seq(|gs|, i requires 0 <= i < |gs| => gs[i].videos)
  }

  /** The videos whose key is `heading`. */
  function KeyIs(key: Video -> string, heading: string): Video -> bool {
    (v: Video) => key(v) == heading
  }

  /** Each group holds exactly the videos with its heading, in list order. */
  ghost predicate GroupsAreFilters(gs: seq<Group>, vs: seq<Video>, key: Video -> string) {
    forall i :: 0 <= i < |gs| ==> gs[i].videos == Filter(KeyIs(key, gs[i].heading), vs)
  }

  /** The headings are the distinct keys of the list, in order of first appearance. */
  lemma {:induction false} GroupHeadings(vs: seq<Video>, key: Video -> string)
    ensures Headings(GroupBy(vs, key)) == Dedup(Keys(vs, key))
  {
    if |vs| > 0 {
      var n := |vs|;
      var p := vs[..n - 1];
      var gs := GroupBy(p, key);
      var l := key(vs[n - 1]);
      GroupHeadings(p, key);
      assert Keys(vs, key)[..n - 1] == Keys(p, key);
      AddHeadings(gs, vs[n - 1], key);
    }
  }

  /** Adding a video appends its key to the headings unless the key is already one. */
  lemma AddHeadings(gs: seq<Group>, v: Video, key: Video -> string)
    ensures Headings(AddToGroup(gs, v, key))
         == if key(v) in Headings(gs) then Headings(gs) else Headings(gs) + [key(v)]
  {
    match FindGroup(gs, key(v))
    case None =>
      assert key(v) !in Headings(gs);
      assert Headings(AddToGroup(gs, v, key)) == Headings(gs) + [key(v)];
    case Some(i) =>
      assert Headings(gs)[i] == key(v);
      assert Headings(AddToGroup(gs, v, key)) == Headings(gs);
  }

  /** Every group is the filter of the list by its heading. */
  lemma {:induction false} GroupMembers(vs: seq<Video>, key: Video -> string)
    ensures GroupsAreFilters(GroupBy(vs, key), vs, key)
  {
    if |vs| > 0 {
      var n := |vs|;
      var p := vs[..n - 1];
      var x := vs[n - 1];
      var gs := GroupBy(p, key);
      GroupMembers(p, key);
      GroupHeadings(p, key);
      assert vs == p + [x];
      var gs' := GroupBy(vs, key);
      forall i | 0 <= i < |gs'| ensures gs'[i].videos == Filter(KeyIs(key, gs'[i].heading), vs) {
        GroupMemberStep(p, x, key, i);
      }
    }
  }

  lemma GroupMemberStep(p: seq<Video>, x: Video, key: Video -> string, i: int)
    requires GroupsAreFilters(GroupBy(p, key), p, key)
    requires Headings(GroupBy(p, key)) == Dedup(Keys(p, key))
    requires 0 <= i < |AddToGroup(GroupBy(p, key), x, key)|
    ensures var g := AddToGroup(GroupBy(p, key), x, key)[i];
            g.videos == Filter(KeyIs(key, g.heading), p + [x])
  {
    var gs := GroupBy(p, key);
    var g := AddToGroup(gs, x, key)[i];
    var q := KeyIs(key, g.heading);
    FilterConcat(q, p, [x]);
    assert [x][1..] == [];
    assert Filter(q, [x]) == if key(x) == g.heading then [x] else [];
    if i < |gs| {
      assert g.heading == gs[i].heading;
      assert gs[i].videos == Filter(q, p);
      if key(x) == g.heading {
        assert Headings(gs)[i] == key(x);
        match FindGroup(gs, key(x))
        case None =>
        case Some(j) =>
          assert Headings(gs)[j] == key(x);
          assert Distinct(Headings(gs));
          assert i == j;
      } else {
        assert g == gs[i];
      }
    } else {
      assert g == Group(key(x), [x]);
      assert key(x) !in Headings(gs);
      NoMemberOfUnusedKey(p, key, key(x));
    }
  }

  /** A heading no video carries selects nothing. */
  lemma NoMemberOfUnusedKey(vs: seq<Video>, key: Video -> string, heading: string)
    requires heading !in Dedup(Keys(vs, key))
    ensures Filter(KeyIs(key, heading), vs) == []
  {
    forall k | 0 <= k < |vs| ensures !KeyIs(key, heading)(vs[k]) {
      assert Keys(vs, key)[k] == key(vs[k]);
    }
    FilterNone(KeyIs(key, heading), vs);
  }

  /** Videos with the same key are never separated by one with another key. */
  predicate KeysContiguous(vs: seq<Video>, key: Video -> string) {
    forall i, j, k :: 0 <= i < j < k < |vs| && key(vs[i]) == key(vs[k]) ==> key(vs[j]) == key(vs[i])
  }

  /**
   When every key's videos sit together, reading the groups in heading order
   gives back the list itself; the last group is the last video's.
   */
  lemma {:induction false} GroupsCoverContiguous(vs: seq<Video>, key: Video -> string)
    requires KeysContiguous(vs, key)
    ensures Flatten(Members(GroupBy(vs, key))) == vs
    ensures |vs| > 0 ==>
              && |GroupBy(vs, key)| > 0
              && GroupBy(vs, key)[|GroupBy(vs, key)| - 1].heading == key(vs[|vs| - 1])
  {
    if |vs| > 0 {
      var p := vs[..|vs| - 1];
      var x := vs[|vs| - 1];
      ContiguousPrefix(vs, key);
      GroupsCoverContiguous(p, key);
      SplitLast(vs);
      CoverStep(p, x, key);
    }
  }

  /** The inductive step: the groups of `p` cover it, so those of `p + [x]` cover that. */
  lemma CoverStep(p: seq<Video>, x: Video, key: Video -> string)
    requires KeysContiguous(p + [x], key)
    requires Flatten(Members(GroupBy(p, key))) == p
    requires |p| > 0 ==> |GroupBy(p, key)| > 0 && GroupBy(p, key)[|GroupBy(p, key)| - 1].heading == key(p[|p| - 1])
    ensures Flatten(Members(AddToGroup(GroupBy(p, key), x, key))) == p + [x]
    ensures |AddToGroup(GroupBy(p, key), x, key)| > 0
    ensures AddToGroup(GroupBy(p, key), x, key)[|AddToGroup(GroupBy(p, key), x, key)| - 1].heading == key(x)
  {
    var gs := GroupBy(p, key);
    if FindGroup(gs, key(x)).Some? {
      RepeatGoesToLastGroup(p, x, key);
    }
    AddFlattens(gs, x, key);
  }

  /** Adding a video that opens a group, or joins the last one, appends it to the flattened list. */
  lemma AddFlattens(gs: seq<Group>, x: Video, key: Video -> string)
    requires FindGroup(gs, key(x)).Some? ==> FindGroup(gs, key(x)).value == |gs| - 1
    ensures Flatten(Members(AddToGroup(gs, x, key))) == Flatten(Members(gs)) + [x]
    ensures |AddToGroup(gs, x, key)| > 0 && AddToGroup(gs, x, key)[|AddToGroup(gs, x, key)| - 1].heading == key(x)
  {
    match FindGroup(gs, key(x))
    case None =>
      NewGroupFlattens(gs, x, key(x));
    case Some(i) =>
      LastGroupGrows(gs, x);
  }

  lemma ContiguousPrefix(vs: seq<Video>, key: Video -> string)
    requires KeysContiguous(vs, key) && |vs| > 0
    ensures KeysContiguous(vs[..|vs| - 1], key)
  {
    var p := vs[..|vs| - 1];
    forall i, j, k | 0 <= i < j < k < |p| && key(p[i]) == key(p[k])
      ensures key(p[j]) == key(p[i])
    {
      assert p[i] == vs[i] && p[j] == vs[j] && p[k] == vs[k];
    }
  }

  /** Opening a group at the end appends its one video to the flattened list. */
  lemma NewGroupFlattens(gs: seq<Group>, x: Video, l: string)
    ensures Flatten(Members(gs + [Group(l, [x])])) == Flatten(Members(gs)) + [x]
  {
    var gs' := gs + [Group(l, [x])];
    assert Members(gs')[..|gs|] == Members(gs);
  }

  /** Under contiguity, a key seen before belongs to the group opened last. */
  lemma RepeatGoesToLastGroup(p: seq<Video>, x: Video, key: Video -> string)
    requires KeysContiguous(p + [x], key)
    requires |p| > 0 ==> |GroupBy(p, key)| > 0 && GroupBy(p, key)[|GroupBy(p, key)| - 1].heading == key(p[|p| - 1])
    requires FindGroup(GroupBy(p, key), key(x)).Some?
    ensures FindGroup(GroupBy(p, key), key(x)).value == |GroupBy(p, key)| - 1
  {
    var l := key(x);
    var gs := GroupBy(p, key);
    var i := FindGroup(gs, l).value;
    GroupKeys(p, key, i);
    KeyRepeatsLast(p, x, key);
    var last := |gs| - 1;
    assert gs[last].heading == l;
    HeadingsIdentify(gs, i, last);
  }

  /** Every heading is the key of some video, and no heading repeats. */
  lemma GroupKeys(vs: seq<Video>, key: Video -> string, i: nat)
    requires i < |GroupBy(vs, key)|
    ensures GroupBy(vs, key)[i].heading in Keys(vs, key)
    ensures Distinct(Headings(GroupBy(vs, key)))
  {
    GroupHeadings(vs, key);
    assert Headings(GroupBy(vs, key))[i] in Dedup(Keys(vs, key));
  }

  /** Distinct headings: two groups with the same heading are the same group. */
  lemma HeadingsIdentify(gs: seq<Group>, i: nat, j: nat)
    requires Distinct(Headings(gs))
    requires i < |gs| && j < |gs| && gs[i].heading == gs[j].heading
    ensures i == j
  {
    assert Headings(gs)[i] == Headings(gs)[j];
  }

  /** Under contiguity, a key that recurs at the end was also the key just before it. */
  lemma KeyRepeatsLast(p: seq<Video>, x: Video, key: Video -> string)
    requires KeysContiguous(p + [x], key)
    requires key(x) in Keys(p, key)
    ensures |p| > 0 && key(p[|p| - 1]) == key(x)
  {
    var vs := p + [x];
    var n := |vs|;
    var k :| 0 <= k < |p| && Keys(p, key)[k] == key(x);
    assert vs[k] == p[k] && vs[n - 2] == p[n - 2] && vs[n - 1] == x;
    if k < n - 2 {
      assert key(vs[n - 2]) == key(vs[k]);
    }
  }

  /** Appending to the last group appends to the flattened list. */
  lemma LastGroupGrows(gs: seq<Group>, x: Video)
    requires |gs| > 0
    ensures var last := |gs| - 1;
            Flatten(Members(gs[last := Group(gs[last].heading, gs[last].videos + [x])]))
            == Flatten(Members(gs)) + [x]
  {
    var last := |gs| - 1;
    var gs' := gs[last := Group(gs[last].heading, gs[last].videos + [x])];
    assert Members(gs')[..last] == Members(gs)[..last];
  }

  /** Newest-first order keeps each month's videos together. */
  lemma NewestFirstIsContiguous(vs: seq<Video>)
    requires Merge.NewestFirst(vs)
    ensures KeysContiguous(vs, MonthLabel)
  {
    forall i, j, k | 0 <= i < j < k < |vs| && MonthLabel(vs[i]) == MonthLabel(vs[k])
      ensures MonthLabel(vs[j]) == MonthLabel(vs[i])
    {
      var a, b, c := vs[i].publishedDate, vs[j].publishedDate, vs[k].publishedDate;
      MonthYearLabelIff(a, c);
      MonthYearLabelIff(a, b);
      YearMonthMonotone(c, b);
      YearMonthMonotone(b, a);
    }
  }

  /** Filtering a newest-first list keeps it newest first. */
  lemma NewestFirstSubsequence(a: seq<Video>, b: seq<Video>)
    requires IsSubsequence(a, b) && Merge.NewestFirst(b)
    ensures Merge.NewestFirst(a)
  {
    forall i, j | 0 <= i < j < |a| ensures a[i].publishedDate >= a[j].publishedDate {
      SubsequenceIndices(a, b, i, j);
    }
  }

  /**
   Without contiguity the sections reorder the list: a search ranking that
   interleaves two months shows the later match of the first month before
   the match of the second.
   */
  lemma InterleavedKeysRegroup(a: Video, b: Video, c: Video, key: Video -> string)
    requires key(a) == key(c) != key(b)
    ensures Headings(GroupBy([a, b, c], key)) == [key(a), key(b)]
    ensures Flatten(Members(GroupBy([a, b, c], key))) == [a, c, b]
  {
    assert [a, b, c][..2] == [a, b] && [a, b][..1] == [a] && [a][..0] == [];
    var g0: seq<Group> := [];
    assert GroupBy([a][..0], key) == g0;
    assert FindGroup(g0, key(a)) == None;
    var g1 := GroupBy([a], key);
    assert g1 == AddToGroup(g0, a, key) == g0 + [Group(key(a), [a])];
    assert g1 == [Group(key(a), [a])];
    assert FindGroup(g1, key(b)) == None by { assert g1[1..] == []; }
    var g2 := GroupBy([a, b], key);
    assert g2 == [Group(key(a), [a]), Group(key(b), [b])];
    assert FindGroup(g2, key(c)) == Some(0);
    var g3 := GroupBy([a, b, c], key);
    assert g3 == AddToGroup(g2, c, key) == g2[0 := Group(key(a), [a] + [c])];
    assert [a] + [c] == [a, c];
    assert g3 == [Group(key(a), [a, c]), Group(key(b), [b])];
    assert Members(g3) == [[a, c], [b]];
    assert Members(g3)[..1] == [[a, c]] && [[a, c]][..0] == [];
    assert Flatten(Members(g3)) == Flatten([[a, c]]) + [b];
    assert Flatten([[a, c]]) == [] + [a, c];
    assert Headings(g3) == [key(a), key(b)];
  }

  /**
   With a blank search, the dashboard's month sections list every visible
   video exactly once, in the newest-first order of processData.
   */
  lemma SectionsCoverVisible(rows: seq<RawVideo>, query: string, searchHits: seq<Video>,
                             region: string, range: string, now: Day)
    requires IsBlank(query)
    ensures var visible := FilterVideos(Merge.ProcessData(rows).videos, query, searchHits, region, range, now);
            Flatten(Members(GroupByMonth(visible))) == visible
  {
    var all := Merge.ProcessData(rows).videos;
    var visible := FilterVideos(all, query, searchHits, region, range, now);
    BlankQueryKeepsAll(all, query, searchHits);
    FilterVideosSpec(all, query, searchHits, region, range, now);
    NewestFirstSubsequence(visible, all);
    NewestFirstIsContiguous(visible);
    GroupsCoverContiguous(visible, MonthLabel);
  }
}

=== FILE: merge.dfy ===
/**
 processData of services/googleSheetsService.ts: merge the rows of each
 video into the row with its best (lowest) rank, collect every region seen,
 then order videos newest first and regions alphabetically.

 The `Map` and `Set` of the source are insertion-ordered sequences here:
 `videoMap` keeps each id at the position of its first row, and a later row
 with a strictly lower rank replaces the stored row in place.
 */
module Merge {
  import opened Wrappers
  import opened Calendar
  import opened Text
  import opened Types
  import opened Seqs
  import DateFormat

  /** The result of processData: merged videos and the sorted region list. */
  datatype Dataset = Dataset(videos: seq<Video>, regions: seq<string>)

  /** The two collections filled by the forEach loop. */
  datatype Accumulator = Accumulator(videoMap: seq<RawVideo>, regionSet: seq<string>)

  // ---------------------------------------------------------------------------
  // The merge loop

  function IndexOfId(entries: seq<RawVideo>, id: string): (r: Option<nat>)
    ensures r.Some? ==> r.value < |entries| && entries[r.value].videoId == id
    ensures r.None? ==> forall i :: 0 <= i < |entries| ==> entries[i].videoId != id
  {
    if |entries| == 0 then None
    else if entries[0].videoId == id then Some(0)
    else match IndexOfId(entries[1..], id)
      case Some(i) => Some(i + 1)
      case None => None
  }

  /** `videoMap.get` then `videoMap.set` when the id is new or the rank strictly better. */
  function Upsert(entries: seq<RawVideo>, v: RawVideo): seq<RawVideo> {
    match IndexOfId(entries, v.videoId)
    case None => entries + [v]
    case Some(i) => if v.rank < entries[i].rank then entries[i := v] else entries
  }

  /** One iteration of the forEach loop. */
  function Step(acc: Accumulator, v: RawVideo): Accumulator {
    var regionSet :=
      if v.trendingRegion != "" && v.trendingRegion !in acc.regionSet
      then acc.regionSet + [v.trendingRegion] else acc.regionSet;
    Accumulator(Upsert(acc.videoMap, v), regionSet)
  }

  /** The whole forEach loop over the rows, in order. */
  function Fold(rows: seq<RawVideo>): Accumulator {
    if |rows| == 0 then Accumulator([], [])
    else Step(Fold(rows[..|rows| - 1]), rows[|rows| - 1])
  }

  // ---------------------------------------------------------------------------
  // What the merge is meant to compute

  function Ids(rows: seq<RawVideo>): seq<string> {
    seq(|rows|, i requires 0 <= i < |rows| => rows[i].videoId)
  }

  /** The non-empty regions of the rows, in row order (repeats kept). */
  function RegionsOf(rows: seq<RawVideo>): seq<string> {
    if |rows| == 0 then []
    else
      var last := rows[|rows| - 1];
      RegionsOf(rows[..|rows| - 1]) + (if last.trendingRegion != "" then [last.trendingRegion] else [])
  }

  lemma {:induction false} RegionsOfSpec(rows: seq<RawVideo>)
    ensures forall r :: r in RegionsOf(rows) <==> r != "" && exists i :: 0 <= i < |rows| && rows[i].trendingRegion == r
  {
    if |rows| > 0 {
      var p := rows[..|rows| - 1];
      RegionsOfSpec(p);
      forall r | r != "" && (exists i :: 0 <= i < |rows| && rows[i].trendingRegion == r)
        ensures r in RegionsOf(rows)
      {
        var i :| 0 <= i < |rows| && rows[i].trendingRegion == r;
        if i < |rows| - 1 {
          assert p[i].trendingRegion == r;
        }
      }
    }
  }

  /**
   Row `i` is the one processData keeps for its id: no row with that id has
   a lower rank, and every earlier row with that id has a strictly higher one.
   */
  ghost predicate IsFirstBest(rows: seq<RawVideo>, i: int) {
    && 0 <= i < |rows|
    && (forall j :: 0 <= j < |rows| && rows[j].videoId == rows[i].videoId ==> rows[i].rank <= rows[j].rank)
    && (forall j :: 0 <= j < i && rows[j].videoId == rows[i].videoId ==> rows[i].rank < rows[j].rank)
  }

  /** Each id has one first-best row. */
  lemma FirstBestUnique(rows: seq<RawVideo>, i: int, j: int)
    requires IsFirstBest(rows, i) && IsFirstBest(rows, j)
    requires rows[i].videoId == rows[j].videoId
    ensures i == j
  {
  }

  lemma UpsertIds(e: seq<RawVideo>, v: RawVideo)
    ensures Ids(Upsert(e, v)) == if v.videoId in Ids(e) then Ids(e) else Ids(e) + [v.videoId]
  {
    match IndexOfId(e, v.videoId)
    case None =>
      assert v.videoId !in Ids(e);
    case Some(q) =>
      assert Ids(e)[q] == v.videoId;
  }

  lemma PrefixIds(rows: seq<RawVideo>)
    requires |rows| > 0
    ensures Ids(rows) == Ids(rows[..|rows| - 1]) + [rows[|rows| - 1].videoId]
  {
  }

  /** A stored row stays first-best when the next row is for another id or no better. */
  lemma ExtendWinner(rows: seq<RawVideo>, i: int)
    requires |rows| > 0 && IsFirstBest(rows[..|rows| - 1], i)
    requires rows[|rows| - 1].videoId != rows[i].videoId || rows[i].rank <= rows[|rows| - 1].rank
    ensures IsFirstBest(rows, i)
  {
    var p := rows[..|rows| - 1];
    assert forall j :: 0 <= j < |p| ==> p[j] == rows[j];
  }

  /** The last row becomes first-best when every earlier row of its id ranks strictly worse. */
  lemma NewWinner(rows: seq<RawVideo>)
    requires |rows| > 0
    requires forall j :: 0 <= j < |rows| - 1 && rows[j].videoId == rows[|rows| - 1].videoId
                         ==> rows[|rows| - 1].rank < rows[j].rank
    ensures IsFirstBest(rows, |rows| - 1)
  {
  }

  /** Every stored row is the first-best row of the input for its id. */
  ghost predicate AllFirstBest(rows: seq<RawVideo>, e: seq<RawVideo>) {
    forall p :: 0 <= p < |e| ==> exists i :: IsFirstBest(rows, i) && e[p] == rows[i]
  }

  /** The merge loop keeps one row per id, in order of each id's first appearance. */
  lemma {:induction false} FoldIds(rows: seq<RawVideo>)
    ensures Ids(Fold(rows).videoMap) == Dedup(Ids(rows))
  {
    if |rows| > 0 {
      var n := |rows|;
      var p := rows[..n - 1];
      FoldIds(p);
      UpsertIds(Fold(p).videoMap, rows[n - 1]);
      PrefixIds(rows);
      assert Ids(rows)[..n - 1] == Ids(p);
    }
  }

  /** The region set holds every non-empty region, in order of first appearance. */
  lemma {:induction false} FoldRegions(rows: seq<RawVideo>)
    ensures Fold(rows).regionSet == Dedup(RegionsOf(rows))
  {
    if |rows| > 0 {
      var p := rows[..|rows| - 1];
      FoldRegions(p);
      var xs := RegionsOf(rows);
      var last := rows[|rows| - 1].trendingRegion;
      if last != "" {
        assert xs == RegionsOf(p) + [last];
        assert xs[..|xs| - 1] == RegionsOf(p);
      } else {
        assert xs == RegionsOf(p);
      }
    }
  }

  /** The row the merge loop keeps for an id is the first one with that id's minimum rank. */
  lemma {:induction false} FoldWinners(rows: seq<RawVideo>)
    ensures AllFirstBest(rows, Fold(rows).videoMap)
  {
    if |rows| > 0 {
      var p := rows[..|rows| - 1];
      var e := Fold(p).videoMap;
      FoldWinners(p);
      FoldIds(p);
      DistinctIds(e);
      if IndexOfId(e, rows[|rows| - 1].videoId).None? {
        FreshIdWins(rows, e);
      }
      StepWinners(rows, e);
      assert Fold(rows).videoMap == Upsert(Fold(p).videoMap, rows[|rows| - 1]);
    }
  }

  /** One loop iteration keeps every stored row first-best. */
  lemma StepWinners(rows: seq<RawVideo>, e: seq<RawVideo>)
    requires |rows| > 0
    requires AllFirstBest(rows[..|rows| - 1], e)
    requires forall a, b :: 0 <= a < b < |e| ==> e[a].videoId != e[b].videoId
    requires IndexOfId(e, rows[|rows| - 1].videoId).None? ==> IsFirstBest(rows, |rows| - 1)
    ensures AllFirstBest(rows, Upsert(e, rows[|rows| - 1]))
  {
    var e' := Upsert(e, rows[|rows| - 1]);
    forall q | 0 <= q < |e'|
      ensures exists i :: IsFirstBest(rows, i) && e'[q] == rows[i]
    {
      StepWinnerAt(rows, e, q);
    }
  }

  lemma DistinctIds(e: seq<RawVideo>)
    requires Distinct(Ids(e))
    ensures forall a, b :: 0 <= a < b < |e| ==> e[a].videoId != e[b].videoId
  {
    forall a, b | 0 <= a < b < |e| ensures e[a].videoId != e[b].videoId {
      assert Ids(e)[a] != Ids(e)[b];
    }
  }

  lemma StepWinnerAt(rows: seq<RawVideo>, e: seq<RawVideo>, q: int)
    requires |rows| > 0
    requires AllFirstBest(rows[..|rows| - 1], e)
    requires forall a, b :: 0 <= a < b < |e| ==> e[a].videoId != e[b].videoId
    requires IndexOfId(e, rows[|rows| - 1].videoId).None? ==> IsFirstBest(rows, |rows| - 1)
    requires 0 <= q < |Upsert(e, rows[|rows| - 1])|
    ensures exists i :: IsFirstBest(rows, i) && Upsert(e, rows[|rows| - 1])[q] == rows[i]
  {
    var n := |rows|;
    var p := rows[..n - 1];
    var v := rows[n - 1];
    UpsertAt(e, v, q);
    if q < |e| {
      var i :| IsFirstBest(p, i) && e[q] == p[i];
      assert rows[i] == p[i];
      if Upsert(e, v)[q] == e[q] {
        ExtendWinner(rows, i);
      } else {
        BeatsWinner(rows, i);
        assert Upsert(e, v)[q] == rows[n - 1];
      }
    } else {
      assert Upsert(e, v)[q] == rows[n - 1];
    }
  }

  /**
   Position `q` after an upsert: an old entry unless it is the one replaced,
   the new row otherwise; an old entry with the new row's id survives only
   when the new row is not strictly better.
   */
  lemma UpsertAt(e: seq<RawVideo>, v: RawVideo, q: int)
    requires forall a, b :: 0 <= a < b < |e| ==> e[a].videoId != e[b].videoId
    requires 0 <= q < |Upsert(e, v)|
    ensures q >= |e| ==> IndexOfId(e, v.videoId).None? && Upsert(e, v)[q] == v
    ensures q < |e| && Upsert(e, v)[q] == e[q] ==> e[q].videoId != v.videoId || e[q].rank <= v.rank
    ensures q < |e| && Upsert(e, v)[q] != e[q] ==> Upsert(e, v)[q] == v && e[q].videoId == v.videoId && v.rank < e[q].rank
  {
  }

  /** A row strictly better than its id's first-best row becomes the new first-best. */
  lemma BeatsWinner(rows: seq<RawVideo>, i: int)
    requires |rows| > 0 && IsFirstBest(rows[..|rows| - 1], i)
    requires rows[|rows| - 1].videoId == rows[i].videoId && rows[|rows| - 1].rank < rows[i].rank
    ensures IsFirstBest(rows, |rows| - 1)
  {
    var p := rows[..|rows| - 1];
    forall j | 0 <= j < |rows| - 1 && rows[j].videoId == rows[|rows| - 1].videoId
      ensures rows[|rows| - 1].rank < rows[j].rank
    {
      assert p[j] == rows[j] && p[i] == rows[i];
    }
    NewWinner(rows);
  }

  /** A row whose id is not yet stored is first-best: no earlier row has its id. */
  lemma FreshIdWins(rows: seq<RawVideo>, e: seq<RawVideo>)
    requires |rows| > 0
    requires Ids(e) == Dedup(Ids(rows[..|rows| - 1]))
    requires IndexOfId(e, rows[|rows| - 1].videoId).None?
    ensures IsFirstBest(rows, |rows| - 1)
  {
    var n := |rows|;
    var p := rows[..n - 1];
    assert rows[n - 1].videoId !in Ids(e);
    forall j | 0 <= j < n - 1 ensures rows[j].videoId != rows[n - 1].videoId {
      assert Ids(p)[j] == rows[j].videoId;
    }
  }

  // ---------------------------------------------------------------------------
  // Sorting

  predicate NewestFirst(s: seq<Video>) {
    forall i, j :: 0 <= i < j < |s| ==> s[i].publishedDate >= s[j].publishedDate
  }

  /** Insert before the first video that is not newer: equal dates keep their order. */
  function InsertByDate(x: Video, s: seq<Video>): (r: seq<Video>)
    requires NewestFirst(s)
    ensures NewestFirst(r)
    ensures multiset(r) == multiset(s) + multiset{x}
  {
    if |s| == 0 || s[0].publishedDate <= x.publishedDate then [x] + s
    else
      var t := InsertByDate(x, s[1..]);
      assert s == [s[0]] + s[1..];
      NewestAfterHead(s[0], t, x, s[1..]);
      [s[0]] + t
  }

  lemma NewestAfterHead(h: Video, t: seq<Video>, x: Video, rest: seq<Video>)
    requires NewestFirst(t) && NewestFirst([h] + rest)
    requires multiset(t) == multiset(rest) + multiset{x}
    requires x.publishedDate < h.publishedDate
    ensures NewestFirst([h] + t)
  {
    var r := [h] + t;
    forall i, j | 0 <= i < j < |r| ensures r[i].publishedDate >= r[j].publishedDate {
      if i == 0 {
        var y := t[j - 1];
        assert r[j] == y;
        assert y in multiset(t);
        if y != x {
          assert multiset(t)[y] == multiset(rest)[y] + multiset{x}[y];
          assert y in multiset(rest);
          var k :| 0 <= k < |rest| && rest[k] == y;
          assert ([h] + rest)[k + 1] == y;
          assert ([h] + rest)[0] == h;
          assert h.publishedDate >= y.publishedDate;
        }
      } else {
        assert r[i] == t[i - 1] && r[j] == t[j - 1];
      }
    }
  }

  /**
   `sort((a, b) => b.publishedDate - a.publishedDate)`: newest first, a
   permutation, stable for equal dates (JavaScript's sort is stable).
   */
  function SortByDate(s: seq<Video>): (r: seq<Video>)
    ensures NewestFirst(r)
    ensures multiset(r) == multiset(s)
  {
    if |s| == 0 then []
    else
      assert s == [s[0]] + s[1..];
      InsertByDate(s[0], SortByDate(s[1..]))
  }

  /** The videos published on day `d`. */
  function OnDay(d: Day): Video -> bool {
    (v: Video) => v.publishedDate == d
  }

  lemma {:induction false} InsertByDateStable(d: Day, x: Video, s: seq<Video>)
    requires NewestFirst(s)
    ensures Filter(OnDay(d), InsertByDate(x, s)) == Filter(OnDay(d), [x] + s)
  {
    if |s| > 0 && s[0].publishedDate > x.publishedDate {
      var t := InsertByDate(x, s[1..]);
      InsertPastHead(x, s);
      SplitFirst(s);
      InsertByDateStable(d, x, s[1..]);
      SwapFilter(d, s[0], x, t, s[1..]);
    }
  }

  /** A video older than the head is inserted into the tail. */
  lemma InsertPastHead(x: Video, s: seq<Video>)
    requires NewestFirst(s) && |s| > 0 && s[0].publishedDate > x.publishedDate
    ensures NewestFirst(s[1..])
    ensures InsertByDate(x, s) == [s[0]] + InsertByDate(x, s[1..])
  {
  }

  /** Two videos of different dates can trade places without changing what a day filter keeps. */
  lemma SwapFilter(d: Day, h: Video, x: Video, t: seq<Video>, r: seq<Video>)
    requires h.publishedDate != x.publishedDate
    requires Filter(OnDay(d), t) == Filter(OnDay(d), [x] + r)
    ensures Filter(OnDay(d), [h] + t) == Filter(OnDay(d), [x] + ([h] + r))
  {
    var q := OnDay(d);
    var a, b, c := Filter(q, [h]), Filter(q, [x]), Filter(q, r);
    FilterConcat(q, [h], t);
    FilterConcat(q, [x], r);
    FilterConcat(q, [x], [h] + r);
    FilterConcat(q, [h], r);
    // At most one of the two passes.
    FilterSingle(q, h);
    FilterSingle(q, x);
    if a == [] {
      assert a + (b + c) == b + c == b + (a + c);
    } else {
      assert b == [];
      assert a + (b + c) == a + c == b + (a + c);
    }
  }

  /** Sorting by date keeps the relative order of videos published on the same day. */
  lemma {:induction false} SortByDateStable(d: Day, s: seq<Video>)
    ensures Filter(OnDay(d), SortByDate(s)) == Filter(OnDay(d), s)
  {
    if |s| > 0 {
      SortByDateStable(d, s[1..]);
      InsertByDateStable(d, s[0], SortByDate(s[1..]));
      SplitFirst(s);
      FilterSameTail(OnDay(d), s[0], SortByDate(s[1..]), s[1..]);
    }
  }

  /** Strictly ascending in the default string order, hence free of repeats. */
  predicate StrictlyAscending(s: seq<string>) {
    forall i, j :: 0 <= i < j < |s| ==> StrLt(s[i], s[j])
  }

  /** A strictly ascending list has no repeats. */
  lemma AscendingIsDistinct(s: seq<string>)
    requires StrictlyAscending(s)
    ensures Distinct(s)
  {
    forall i, j | 0 <= i < j < |s|
      ensures s[i] != s[j]
    {
      StrLtIrreflexive(s[i]);
    }
  }

  function InsertString(x: string, s: seq<string>): (r: seq<string>)
    requires StrictlyAscending(s) && x !in s
    ensures StrictlyAscending(r)
    ensures forall y :: y in r <==> y == x || y in s
    ensures |r| == |s| + 1
  {
    if |s| == 0 then [x]
    else if StrLt(x, s[0]) then
      assert forall j :: 0 < j < |s| ==> StrLt(x, s[j]) by {
        forall j | 0 < j < |s| ensures StrLt(x, s[j]) {
          StrLtTransitive(x, s[0], s[j]);
        }
      }
      [x] + s
    else
      StrLtTotal(x, s[0]);
      assert s == [s[0]] + s[1..];
      var t := InsertString(x, s[1..]);
      var r := [s[0]] + t;
      assert forall i, j :: 0 <= i < j < |r| ==> StrLt(r[i], r[j]) by {
        forall i, j | 0 <= i < j < |r| ensures StrLt(r[i], r[j]) {
          if i == 0 {
            assert r[j] in t;
          } else {
            assert r[i] == t[i - 1] && r[j] == t[j - 1];
          }
        }
      }
      r
  }

  /** `Array.from(regionSet).sort()` on a repeat-free list. */
  function SortStrings(s: seq<string>): (r: seq<string>)
    requires Distinct(s)
    ensures StrictlyAscending(r)
    ensures forall y :: y in r <==> y in s
    ensures |r| == |s|
  {
    if |s| == 0 then []
    else
      assert s == [s[0]] + s[1..];
      InsertString(s[0], SortStrings(s[1..]))
  }

  // ---------------------------------------------------------------------------
  // processData

  function ToVideo(v: RawVideo): Video {
    Video(
      id := v.videoId,
      bestRank := v.rank,
      title := v.title,
      channelName := v.channelName,
      videoUrl := v.videoUrl,
      publishedDate := v.publishedDate,
      publishedDateFormatted := DateFormat.ShortDateLabel(v.publishedDate),
      bestRegion := v.trendingRegion)
  }

  function ToVideos(entries: seq<RawVideo>): seq<Video> {
    seq(|entries|, i requires 0 <= i < |entries| => ToVideo(entries[i]))
  }

  function ProcessData(rows: seq<RawVideo>): (r: Dataset)
    ensures NewestFirst(r.videos)
    ensures StrictlyAscending(r.regions) && Distinct(r.regions)
  {
    var acc := Fold(rows);
    FoldRegions(rows);
    AscendingIsDistinct(SortStrings(acc.regionSet));
    Dataset(SortByDate(ToVideos(acc.videoMap)), SortStrings(acc.regionSet))
  }

  /** The videos whose id is `id`. */
  function HasId(id: string): Video -> bool {
    (v: Video) => v.id == id
  }

  lemma {:induction false} CountDistinct(id: string, s: seq<Video>)
    requires forall i, j :: 0 <= i < j < |s| ==> s[i].id != s[j].id
    ensures |Filter(HasId(id), s)| == if exists i :: 0 <= i < |s| && s[i].id == id then 1 else 0
  {
    if |s| > 0 {
      CountDistinct(id, s[1..]);
      if s[0].id == id {
        assert !exists i :: 0 <= i < |s[1..]| && s[1..][i].id == id;
      }
      if exists i :: 0 <= i < |s| && s[i].id == id {
        var i :| 0 <= i < |s| && s[i].id == id;
        if i > 0 {
          assert s[1..][i - 1].id == id;
        }
      }
    }
  }

  lemma {:induction false} CountPermutation(q: Video -> bool, a: seq<Video>, b: seq<Video>)
    requires multiset(a) == multiset(b)
    ensures |Filter(q, a)| == |Filter(q, b)|
    decreases |a|
  {
    if |a| > 0 {
      var x := a[0];
      assert x in multiset(b);
      var k :| 0 <= k < |b| && b[k] == x;
      RemoveAt(b, k);
      assert multiset(a[1..]) == multiset(a) - multiset{x} by {
        assert a == [x] + a[1..];
      }
      CountPermutation(q, a[1..], b[..k] + b[k + 1..]);
      CountRemoveAt(q, b, k);
    } else {
      assert |b| == |multiset(b)| == 0;
    }
  }

  /** Deleting the element at `k` takes one copy of it out of the multiset. */
  lemma RemoveAt(b: seq<Video>, k: int)
    requires 0 <= k < |b|
    ensures multiset(b[..k] + b[k + 1..]) == multiset(b) - multiset{b[k]}
  {
    assert b == b[..k] + [b[k]] + b[k + 1..];
  }

  /** Deleting the element at `k` removes it from the filter count when it passes. */
  lemma CountRemoveAt(q: Video -> bool, b: seq<Video>, k: int)
    requires 0 <= k < |b|
    ensures |Filter(q, b)| == |Filter(q, b[..k] + b[k + 1..])| + (if q(b[k]) then 1 else 0)
  {
    FilterConcat(q, b[..k], [b[k]] + b[k + 1..]);
    FilterConcat(q, [b[k]], b[k + 1..]);
    FilterConcat(q, b[..k], b[k + 1..]);
    assert b[..k] + ([b[k]] + b[k + 1..]) == b;
  }

  /** The unsorted videos carry the stored ids, which are repeat-free. */
  lemma ToVideosIds(e: seq<RawVideo>, id: string)
    requires Distinct(Ids(e))
    ensures forall i, j :: 0 <= i < j < |ToVideos(e)| ==> ToVideos(e)[i].id != ToVideos(e)[j].id
    ensures (exists i :: 0 <= i < |ToVideos(e)| && ToVideos(e)[i].id == id) <==> id in Ids(e)
  {
    var u := ToVideos(e);
    forall i, j | 0 <= i < j < |u| ensures u[i].id != u[j].id {
      VideoIdAt(e, i);
      VideoIdAt(e, j);
    }
    if id in Ids(e) {
      var i :| 0 <= i < |e| && Ids(e)[i] == id;
      VideoIdAt(e, i);
    }
    if exists i :: 0 <= i < |u| && u[i].id == id {
      var i :| 0 <= i < |u| && u[i].id == id;
      VideoIdAt(e, i);
    }
  }

  lemma VideoIdAt(e: seq<RawVideo>, i: int)
    requires 0 <= i < |e|
    ensures |ToVideos(e)| == |Ids(e)| == |e| && ToVideos(e)[i].id == Ids(e)[i]
  {
  }

  /** processData yields exactly one video for each distinct id of its input, and no other. */
  lemma ProcessDataIds(rows: seq<RawVideo>, id: string)
    ensures |Filter(HasId(id), ProcessData(rows).videos)| == if id in Ids(rows) then 1 else 0
  {
    var e := Fold(rows).videoMap;
    FoldIds(rows);
    ToVideosIds(e, id);
    CountDistinct(id, ToVideos(e));
    CountPermutation(HasId(id), ProcessData(rows).videos, ToVideos(e));
  }

  /** Every video is built from the first row that holds its id's minimum rank. */
  lemma ProcessDataWinners(rows: seq<RawVideo>)
    ensures forall v :: v in ProcessData(rows).videos ==>
              exists i :: IsFirstBest(rows, i) && v == ToVideo(rows[i])
  {
    var e := Fold(rows).videoMap;
    FoldWinners(rows);
    var u := ToVideos(e);
    var videos := ProcessData(rows).videos;
    assert videos == SortByDate(u);
    forall v | v in videos ensures exists i :: IsFirstBest(rows, i) && v == ToVideo(rows[i]) {
      assert v in multiset(videos);
      StoredIsWinner(rows, e, v);
    }
  }

  /** A video built from a stored row is built from a first-best row. */
  lemma StoredIsWinner(rows: seq<RawVideo>, e: seq<RawVideo>, v: Video)
    requires AllFirstBest(rows, e) && v in multiset(ToVideos(e))
    ensures exists i :: IsFirstBest(rows, i) && v == ToVideo(rows[i])
  {
    var u := ToVideos(e);
    assert v in u;
    var p :| 0 <= p < |u| && u[p] == v;
    var i :| IsFirstBest(rows, i) && e[p] == rows[i];
    assert v == ToVideo(rows[i]);
  }

  /** The region list is exactly the non-empty regions of all rows, winners or not. */
  lemma ProcessDataRegions(rows: seq<RawVideo>)
    ensures forall r :: r in ProcessData(rows).regions <==>
              r != "" && exists i :: 0 <= i < |rows| && rows[i].trendingRegion == r
  {
    FoldRegions(rows);
    RegionsOfSpec(rows);
  }

  /** Videos published on the same day keep the order in which their ids first appeared. */
  lemma ProcessDataStable(rows: seq<RawVideo>, d: Day)
    ensures Filter(OnDay(d), ProcessData(rows).videos) == Filter(OnDay(d), ToVideos(Fold(rows).videoMap))
    ensures Ids(Fold(rows).videoMap) == Dedup(Ids(rows))
  {
    FoldIds(rows);
    SortByDateStable(d, ToVideos(Fold(rows).videoMap));
  }
}

=== FILE: seqs.dfy ===
/** Order-preserving sequence operations: filtering, de-duplication, flattening. */
module Seqs {

  /** `a` can be obtained from `b` by deleting elements: order kept, nothing added. */
  predicate IsSubsequence<T(==)>(a: seq<T>, b: seq<T>)
    decreases |b|
  {
    |a| == 0 || (|b| > 0 && ((a[0] == b[0] && IsSubsequence(a[1..], b[1..])) || IsSubsequence(a, b[1..])))
  }

  /** `Array.prototype.filter`. */
  function Filter<T>(p: T -> bool, xs: seq<T>): seq<T> {
    if |xs| == 0 then [] else (if p(xs[0]) then [xs[0]] else []) + Filter(p, xs[1..])
  }

  /** Filtering keeps exactly the elements that pass, each as often as it occurs, in their original order. */
  lemma FilterSpec<T>(p: T -> bool, xs: seq<T>)
    ensures |Filter(p, xs)| <= |xs|
    ensures forall x :: x in Filter(p, xs) <==> x in xs && p(x)
    ensures IsSubsequence(Filter(p, xs), xs)
    ensures forall x :: multiset(Filter(p, xs))[x] == if p(x) then multiset(xs)[x] else 0
  {
    FilterKeeps(p, xs);
    FilterCount(p, xs);
  }

  /** Filtering keeps the passing elements as a subsequence. */
  lemma {:induction false} FilterKeeps<T>(p: T -> bool, xs: seq<T>)
    ensures |Filter(p, xs)| <= |xs|
    ensures forall x :: x in Filter(p, xs) <==> x in xs && p(x)
    ensures IsSubsequence(Filter(p, xs), xs)
  {
    if |xs| > 0 {
      FilterKeeps(p, xs[1..]);
      var r := Filter(p, xs[1..]);
      assert xs == [xs[0]] + xs[1..];
      if p(xs[0]) {
        assert Filter(p, xs) == [xs[0]] + r;
        assert Filter(p, xs)[1..] == r;
      } else {
        assert Filter(p, xs) == r;
        SubsequenceOfTail(r, xs);
      }
    }
  }

  /** Filtering keeps a passing element as often as it occurs and a failing one never. */
  lemma {:induction false} FilterCount<T>(p: T -> bool, xs: seq<T>)
    ensures forall x :: multiset(Filter(p, xs))[x] == if p(x) then multiset(xs)[x] else 0
  {
    if |xs| > 0 {
      FilterCount(p, xs[1..]);
      SplitFirst(xs);
      var head := if p(xs[0]) then [xs[0]] else [];
      assert multiset(xs) == multiset([xs[0]]) + multiset(xs[1..]);
      assert multiset(Filter(p, xs)) == multiset(head) + multiset(Filter(p, xs[1..]));
    }
  }

  /** Nothing passes, nothing is kept. */
  lemma {:induction false} FilterNone<T>(p: T -> bool, xs: seq<T>)
    requires forall k :: 0 <= k < |xs| ==> !p(xs[k])
    ensures Filter(p, xs) == []
  {
    if |xs| > 0 {
      FilterNone(p, xs[1..]);
    }
  }

  lemma {:induction false} SubsequenceOfTail<T>(a: seq<T>, b: seq<T>)
    requires |b| > 0 && IsSubsequence(a, b[1..])
    ensures IsSubsequence(a, b)
  {
  }

  lemma FilterSingle<T>(p: T -> bool, x: T)
    ensures Filter(p, [x]) == if p(x) then [x] else []
  {
    assert [x][1..] == [];
  }

  lemma {:induction false} FilterConcat<T>(p: T -> bool, a: seq<T>, b: seq<T>)
    ensures Filter(p, a + b) == Filter(p, a) + Filter(p, b)
  {
    if |a| > 0 {
      assert (a + b)[1..] == a[1..] + b;
      FilterConcat(p, a[1..], b);
    } else {
      assert a + b == b;
    }
  }

  /** Tails that filter alike still filter alike behind the same head. */
  lemma FilterSameTail<T>(p: T -> bool, x: T, a: seq<T>, b: seq<T>)
    requires Filter(p, a) == Filter(p, b)
    ensures Filter(p, [x] + a) == Filter(p, [x] + b)
  {
    FilterConcat(p, [x], a);
    FilterConcat(p, [x], b);
  }

  /** Elements of a subsequence keep their relative order. */
  lemma {:induction false} SubsequenceIndices<T>(a: seq<T>, b: seq<T>, i: int, j: int)
    requires IsSubsequence(a, b)
    requires 0 <= i < j < |a|
    ensures exists k, l :: 0 <= k < l < |b| && a[i] == b[k] && a[j] == b[l]
    decreases |b|
  {
    if a[0] == b[0] && IsSubsequence(a[1..], b[1..]) {
      if i == 0 {
        SubsequenceMember(a[1..], b[1..], j - 1);
        var l :| 0 <= l < |b[1..]| && a[1..][j - 1] == b[1..][l];
        assert a[i] == b[0] && a[j] == b[l + 1];
      } else {
        SubsequenceIndices(a[1..], b[1..], i - 1, j - 1);
        var k, l :| 0 <= k < l < |b[1..]| && a[1..][i - 1] == b[1..][k] && a[1..][j - 1] == b[1..][l];
        assert a[i] == b[k + 1] && a[j] == b[l + 1];
      }
    } else {
      SubsequenceIndices(a, b[1..], i, j);
      var k, l :| 0 <= k < l < |b[1..]| && a[i] == b[1..][k] && a[j] == b[1..][l];
      assert a[i] == b[k + 1] && a[j] == b[l + 1];
    }
  }

  lemma {:induction false} SubsequenceMember<T>(a: seq<T>, b: seq<T>, i: int)
    requires IsSubsequence(a, b)
    requires 0 <= i < |a|
    ensures exists k :: 0 <= k < |b| && a[i] == b[k]
    decreases |b|
  {
    if a[0] == b[0] && IsSubsequence(a[1..], b[1..]) {
      if i > 0 {
        SubsequenceMember(a[1..], b[1..], i - 1);
        var k :| 0 <= k < |b[1..]| && a[1..][i - 1] == b[1..][k];
        assert a[i] == b[k + 1];
      }
    } else {
      SubsequenceMember(a, b[1..], i);
      var k :| 0 <= k < |b[1..]| && a[i] == b[1..][k];
      assert a[i] == b[k + 1];
    }
  }

  predicate Distinct<T(==)>(xs: seq<T>) {
    forall i, j :: 0 <= i < j < |xs| ==> xs[i] != xs[j]
  }

  /**
   The distinct elements of `xs` in order of first appearance: the iteration
   order of a JavaScript `Set` (or of a `Map`'s keys) filled from `xs`.
   */
  function Dedup<T(==,!new)>(xs: seq<T>): (r: seq<T>)
    ensures Distinct(r)
    ensures forall x :: x in r <==> x in xs
  {
    if |xs| == 0 then []
    else
      var d := Dedup(xs[..|xs| - 1]);
      assert forall x :: x in xs <==> x in xs[..|xs| - 1] || x == xs[|xs| - 1];
      if xs[|xs| - 1] in d then d else d + [xs[|xs| - 1]]
  }

  /** A non-empty sequence is its first element followed by the rest. */
  lemma SplitFirst<T>(xs: seq<T>)
    requires |xs| > 0
    ensures xs == [xs[0]] + xs[1..]
  {
  }

  /** A non-empty sequence is its prefix followed by its last element. */
  lemma SplitLast<T>(xs: seq<T>)
    requires |xs| > 0
    ensures xs == xs[..|xs| - 1] + [xs[|xs| - 1]]
  {
  }

  /** `Array.prototype.map`. */
  function Map<A, B>(f: A -> B, xs: seq<A>): (r: seq<B>)
    ensures |r| == |xs| && forall i :: 0 <= i < |xs| ==> r[i] == f(xs[i])
  {
    seq(|xs|, i requires 0 <= i < |xs| => f(xs[i]))
  }

  /** `xs.map(f).filter(ok)` in one pass: the images that pass, in the order of `xs`. */
  function MapFilter<A, B>(f: A -> B, ok: B -> bool, xs: seq<A>): (r: seq<B>)
    ensures r == Filter(ok, Map(f, xs))
    ensures |r| <= |xs|
    ensures forall y :: y in r ==> ok(y)
    ensures forall y :: y in r ==> exists i :: 0 <= i < |xs| && y == f(xs[i])
    ensures forall i :: 0 <= i < |xs| && ok(f(xs[i])) ==> f(xs[i]) in r
  {
    if |xs| == 0 then []
    else
      var tail := MapFilter(f, ok, xs[1..]);
      assert forall i :: 1 <= i < |xs| ==> xs[i] == xs[1..][i - 1];
      assert Map(f, xs)[1..] == Map(f, xs[1..]);
      (if ok(f(xs[0])) then [f(xs[0])] else []) + tail
  }

  /** `Array.prototype.flat` of one level. */
  function Flatten<T>(xss: seq<seq<T>>): seq<T> {
    if |xss| == 0 then [] else Flatten(xss[..|xss| - 1]) + xss[|xss| - 1]
  }
}

=== FILE: sheet.dfy ===
/**
 The spreadsheet adapter of services/googleSheetsService.ts: pulling the
 JSON out of the JSONP envelope, decoding each row's cells into a RawVideo
 (with the date-hint parser) and dropping invalid rows before the merge.

 The host's own conversions, which the adapter calls but does not define,
 are parameters bundled in `Host`: `Number(string)`, `new Date(string)`,
 `String(date)` and `JSON.parse`.
 */
module Sheet {
  import opened Wrappers
  import opened Text
  import opened Calendar
  import opened Types
  import Seqs
  import Merge

  /**
   A JavaScript value as it can reach a cell's `v` field (absent fields read
   as `Undefined`). `JSON.parse` never yields a `Date`, so `DateObject` cannot
   arrive through DecodeResponse; it is kept because parseDateFromSheet
   accepts any value and tests for one.
   */
  datatype JsValue = Undefined | Null | Num(n: int) | Str(s: string) | DateObject(day: Day)

  /** A cell of the visualization table: its value and, optionally, its formatted text. */
  datatype Cell = Cell(v: JsValue, f: Option<string>)

  /** A table row: its cells by column; a `null` cell is `None`. */
  datatype Row = Row(c: seq<Option<Cell>>)

  datatype Table = Table(rows: Option<seq<Row>>)

  /** The parsed JSON payload; only the fields the adapter reads. */
  datatype SheetData = SheetData(table: Option<Table>)

  /** Host conversions the adapter relies on. `None` stands for NaN, an Invalid Date or a SyntaxError. */
  datatype Host = Host(
    numberFromString: string -> Option<int>,
    dateFromString: string -> Option<Day>,
    dateToString: Day -> string,
    parseJson: string -> Option<SheetData>)

  /** The three ways the adapter throws once the response text is in hand. */
  datatype FetchError = EnvelopeNotFound | MalformedJson | NoData

  const MsPerDay := 86_400_000

  // ---------------------------------------------------------------------------
  // parseDateFromSheet

  /** The length of the run of decimal digits starting at index `i`. */
  function DigitRun(s: string, i: nat): (n: nat)
    requires i <= |s|
    ensures i + n <= |s|
    ensures forall k :: i <= k < i + n ==> IsDigit(s[k])
    ensures i + n < |s| ==> !IsDigit(s[i + n])
    decreases |s| - i
  {
    if i < |s| && IsDigit(s[i]) then 1 + DigitRun(s, i + 1) else 0
  }

  /**
   `(\d+)` at index `i`, followed by a comma when `comma` holds: the digits
   captured and the index just past the comma.
   */
  function Field(s: string, i: nat, comma: bool): (r: Option<(string, nat)>)
    requires i <= |s|
    ensures r.Some? ==> 0 < |r.value.0| && AllDigits(r.value.0)
    ensures r.Some? && comma ==> r.value.1 <= |s|
  {
    var n := DigitRun(s, i);
    if n == 0 then None
    else if comma && (i + n == |s| || s[i + n] != ',') then None
    else Some((s[i..i + n], i + n + 1))
  }

  /** The three groups of a match: year, zero-indexed month and day, as digit strings. */
  type Captures = (string, string, string)

  predicate IsCaptures(t: Captures) {
    AllDigits(t.0) && AllDigits(t.1) && AllDigits(t.2)
  }

  /** `/Date\((\d+),(\d+),(\d+)/` matched at index `i`: the three captured digit strings. */
  function HintAt(s: string, i: nat): (r: Option<Captures>)
    ensures r.Some? ==> IsCaptures(r.value)
  {
    if !StartsAt(s, "Date(", i) then None
    else match Field(s, i + 5, true)
      case None => None
      case Some((year, b)) =>
        match Field(s, b, true)
        case None => None
        case Some((month, c)) =>
          match Field(s, c, false)
          case None => None
          case Some((day, _)) => Some((year, month, day))
  }

  /** The leftmost match at or after index `i`. */
  function HintFrom(s: string, i: nat): (r: Option<Captures>)
    ensures r.Some? ==> IsCaptures(r.value)
    ensures r.Some? ==> exists k :: i <= k <= |s| && HintAt(s, k) == r
                                && forall j :: i <= j < k ==> HintAt(s, j).None?
    ensures forall k :: i <= k <= |s| && HintAt(s, k).Some? ==> r.Some?
    decreases |s| - i
  {
    if i > |s| then None
    else if HintAt(s, i).Some? then HintAt(s, i)
    else HintFrom(s, i + 1)
  }

  /** `s.match(/Date\((\d+),(\d+),(\d+)/)`: the captures of the first match. */
  function DateHint(s: string): Option<Captures> {
    HintFrom(s, 0)
  }

  /**
   parseDateFromSheet: a formatted hint `Date(Y,M,D` wins; otherwise a Date
   value is taken as is, a string goes through `new Date(string)`, and
   anything else (or an Invalid Date) becomes the epoch sentinel.
   */
  function ParseDateFromSheet(host: Host, dateValue: JsValue, dateFormatted: Option<string>): Day {
    var hint := if dateFormatted.Some? && dateFormatted.value != "" then DateHint(dateFormatted.value) else None;
    if hint.Some? then
      var (year, month, day) := hint.value;
      JsDate(DecimalValue(year), DecimalValue(month), DecimalValue(day))
    else match dateValue
      case DateObject(d) => d
      case Str(s) => host.dateFromString(s).GetOr(Epoch)
      case _ => Epoch
  }

  /** A hint starting `Date(Y,M,D` builds the date from Y, zero-indexed M and D, ignoring the raw value and any trailing text. */
  lemma HintWins(host: Host, v: JsValue, ys: string, ms: string, ds: string, rest: string)
    requires |ys| > 0 && |ms| > 0 && |ds| > 0
    requires AllDigits(ys) && AllDigits(ms) && AllDigits(ds)
    requires rest == "" || !IsDigit(rest[0])
    ensures ParseDateFromSheet(host, v, Some("Date(" + ys + "," + ms + "," + ds + rest))
         == JsDate(DecimalValue(ys), DecimalValue(ms), DecimalValue(ds))
  {
    var s := "Date(" + ys + "," + ms + "," + ds + rest;
    HintAtStart(ys, ms, ds, rest);
    assert DateHint(s) == Some((ys, ms, ds)) by {
      assert DateHint(s) == HintAt(s, 0);
    }
    assert s != "" by { assert |s| >= 5; }
    HintDecides(host, v, s, ys, ms, ds);
  }

  /** Whenever the formatted text holds a match, the date comes from its three captures alone. */
  lemma HintDecides(host: Host, v: JsValue, f: string, ys: string, ms: string, ds: string)
    requires f != "" && DateHint(f) == Some((ys, ms, ds))
    ensures AllDigits(ys) && AllDigits(ms) && AllDigits(ds)
    ensures ParseDateFromSheet(host, v, Some(f)) == JsDate(DecimalValue(ys), DecimalValue(ms), DecimalValue(ds))
  {
  }

  /** The pattern matches at index 0 of `Date(Y,M,D…` and captures the three digit strings. */
  lemma HintAtStart(ys: string, ms: string, ds: string, rest: string)
    requires |ys| > 0 && |ms| > 0 && |ds| > 0
    requires AllDigits(ys) && AllDigits(ms) && AllDigits(ds)
    requires rest == "" || !IsDigit(rest[0])
    ensures HintAt("Date(" + ys + "," + ms + "," + ds + rest, 0) == Some((ys, ms, ds))
  {
    var s := "Date(" + ys + "," + ms + "," + ds + rest;
    var p1 := "Date(";
    var p2 := p1 + ys + ",";
    var p3 := p2 + ms + ",";
    var q1 := "," + ms + "," + ds + rest;
    var q2 := "," + ds + rest;
    assert s[..5] == p1;
    Regroup(p1, ys, ",", ms, ",", ds, rest);
    Slice(p1, ys, q1);
    Slice(p2, ms, q2);
    Slice(p3, ds, rest);
    HintAtIndices(s, ys, ms, ds, |p2|, |p3|);
  }

  /** The pattern matches at index 0 when the three digit strings sit at the expected places. */
  lemma HintAtIndices(s: string, ys: string, ms: string, ds: string, b: nat, c: nat)
    requires |ys| > 0 && |ms| > 0 && |ds| > 0
    requires AllDigits(ys) && AllDigits(ms) && AllDigits(ds)
    requires StartsAt(s, "Date(", 0)
    requires b == 5 + |ys| + 1 && c == b + |ms| + 1 && c + |ds| <= |s|
    requires s[5..5 + |ys|] == ys && s[5 + |ys|] == ','
    requires s[b..b + |ms|] == ms && s[b + |ms|] == ','
    requires s[c..c + |ds|] == ds && (c + |ds| == |s| || !IsDigit(s[c + |ds|]))
    ensures HintAt(s, 0) == Some((ys, ms, ds))
  {
    FieldsAt(s, ys, ms, ds, b, c);
    HintOfFields(s, 0, ys, b, ms, c, ds);
  }

  /** The three digit strings sit at the expected places and are each read back as one field. */
  lemma FieldsAt(s: string, ys: string, ms: string, ds: string, b: nat, c: nat)
    requires |ys| > 0 && |ms| > 0 && |ds| > 0
    requires AllDigits(ys) && AllDigits(ms) && AllDigits(ds)
    requires b == 5 + |ys| + 1 && c == b + |ms| + 1 && c + |ds| <= |s|
    requires s[5..5 + |ys|] == ys && s[5 + |ys|] == ','
    requires s[b..b + |ms|] == ms && s[b + |ms|] == ','
    requires s[c..c + |ds|] == ds && (c + |ds| == |s| || !IsDigit(s[c + |ds|]))
    ensures Field(s, 5, true) == Some((ys, b))
    ensures Field(s, b, true) == Some((ms, c))
    ensures Field(s, c, false) == Some((ds, c + |ds| + 1))
  {
    FieldAt(s, 5, ys, true);
    FieldAt(s, b, ms, true);
    FieldAt(s, c, ds, false);
  }

  /** Three fields read in a row after `Date(` make a match. */
  lemma HintOfFields(s: string, i: nat, ys: string, b: nat, ms: string, c: nat, ds: string)
    requires StartsAt(s, "Date(", i)
    requires Field(s, i + 5, true) == Some((ys, b))
    requires b <= |s| && Field(s, b, true) == Some((ms, c))
    requires c <= |s| && Field(s, c, false).Some? && Field(s, c, false).value.0 == ds
    ensures HintAt(s, i) == Some((ys, ms, ds))
  {
  }

  /** The three ways HintAtStart splits its text around a field. */
  lemma Regroup(a: string, b: string, c: string, d: string, e: string, f: string, g: string)
    ensures a + b + c + d + e + f + g == a + b + (c + d + e + f + g)
    ensures a + b + c + d + e + f + g == (a + b + c) + d + (e + f + g)
    ensures a + b + c + d + e + f + g == (a + b + c + d + e) + f + g
  {
  }

  /** The middle part of a concatenation sits at its offset, followed by the first element of the rest. */
  lemma Slice(p: string, x: string, q: string)
    ensures (p + x + q)[|p|..|p| + |x|] == x
    ensures |q| > 0 ==> (p + x + q)[|p| + |x|] == q[0]
  {
  }

  /** A digit string at index `i`, followed by a comma when one is required, is read back as one field. */
  lemma FieldAt(s: string, i: nat, x: string, comma: bool)
    requires i + |x| <= |s| && s[i..i + |x|] == x
    requires |x| > 0 && AllDigits(x)
    requires comma ==> i + |x| < |s| && s[i + |x|] == ','
    requires !comma ==> i + |x| == |s| || !IsDigit(s[i + |x|])
    ensures Field(s, i, comma) == Some((x, i + |x| + 1))
  {
    DigitRunExact(s, i, |x|);
    FieldOfRun(s, i, x, comma);
  }

  /** A non-empty digit run, followed by a comma when one is required, is read as a field. */
  lemma FieldOfRun(s: string, i: nat, x: string, comma: bool)
    requires i <= |s| && DigitRun(s, i) == |x| > 0 && s[i..i + |x|] == x
    requires comma ==> i + |x| < |s| && s[i + |x|] == ','
    ensures Field(s, i, comma) == Some((x, i + |x| + 1))
  {
  }

  /** A digit run of length `n` followed by a non-digit (or the end) is exactly what DigitRun measures. */
  lemma {:induction false} DigitRunExact(s: string, i: nat, n: nat)
    requires i + n <= |s|
    requires AllDigits(s[i..i + n])
    requires i + n == |s| || !IsDigit(s[i + n])
    ensures DigitRun(s, i) == n
    decreases n
  {
    if n > 0 {
      assert IsDigit(s[i..i + n][0]);
      assert s[i + 1..i + n] == s[i..i + n][1..];
      DigitRunExact(s, i + 1, n - 1);
    }
  }

  /** Without a usable hint, a raw value that is neither a Date nor a parseable string yields the epoch sentinel. */
  lemma NoHintFallsBackToEpoch(host: Host, v: JsValue, f: Option<string>)
    requires f.None? || f.value == "" || DateHint(f.value).None?
    requires !v.DateObject?
    requires v.Str? ==> host.dateFromString(v.s).None?
    ensures ParseDateFromSheet(host, v, f) == Epoch
  {
  }

  /** Without a usable hint, a Date value is kept and a parseable string is parsed by the host. */
  lemma NoHintUsesRawValue(host: Host, v: JsValue, f: Option<string>)
    requires f.None? || f.value == "" || DateHint(f.value).None?
    ensures v.DateObject? ==> ParseDateFromSheet(host, v, f) == v.day
    ensures v.Str? && host.dateFromString(v.s).Some? ==> ParseDateFromSheet(host, v, f) == host.dateFromString(v.s).value
  {
  }

  /**
   The hint `Date(2024,2,15)` is the 15th of March 2024. The three captures
   are parameters pinned to "2024", "2" and "15" rather than written into one
   literal, so that the proof reuses HintWins on the pieces instead of having
   the verifier expand a fifteen-character literal.
   */
  lemma MarchFifteenth(host: Host, v: JsValue, ys: string, ms: string, ds: string)
    requires ys == "2024" && ms == "2" && ds == "15"
    ensures ParseDateFromSheet(host, v, Some("Date(" + ys + "," + ms + "," + ds + ")")) == DayNumber(2024, 2, 15)
  {
    HintWins(host, v, ys, ms, ds, ")");
    assert DecimalValue(ys) == 2024 by {
      assert ys[..3] == "202" && "202"[..2] == "20" && "20"[..1] == "2";
    }
    assert DecimalValue(ds) == 15 by {
      assert ds[..1] == "1";
    }
    assert DecimalValue(ms) == 2;
    FullYearDate(2024, 2, 15);
  }

  // ---------------------------------------------------------------------------
  // The JSONP envelope

  const EnvelopeOpen := "google.visualization.Query.setResponse("
  const EnvelopeClose := ");"

  /**
   `text.match(/google\.visualization\.Query\.setResponse\((.*)\);/s)?.[1]`:
   from the first opening call, greedily up to the last `);` after it.
   */
  function ExtractEnvelope(text: string): Option<string> {
    match IndexOfFrom(text, EnvelopeOpen, 0)
    case None => None
    case Some(i) =>
      var start := i + |EnvelopeOpen|;
      match LastIndexFrom(text, EnvelopeClose, start)
      case None => None
      case Some(j) => Some(text[start..j])
  }

  /** With no opening call, or no `);` after the first one, there is nothing to extract. */
  lemma EnvelopeAbsent(text: string)
    ensures !Includes(text, EnvelopeOpen) ==> ExtractEnvelope(text).None?
    ensures forall i :: IndexOfFrom(text, EnvelopeOpen, 0) == Some(i)
                        && (forall k :: i + |EnvelopeOpen| <= k ==> !StartsAt(text, EnvelopeClose, k))
                        ==> ExtractEnvelope(text).None?
  {
  }

  /**
   Wrapping a payload round-trips: leading text without a `g` (so no earlier
   opening call) and trailing text without `);` are stripped, and the payload
   comes back whole even when it contains `);` itself.
   */
  lemma EnvelopeRoundTrip(lead: string, payload: string, trail: string)
    requires forall k :: 0 <= k < |lead| ==> lead[k] != 'g'
    requires !Includes(trail, EnvelopeClose)
    ensures ExtractEnvelope(lead + EnvelopeOpen + payload + EnvelopeClose + trail) == Some(payload)
  {
    var text := lead + EnvelopeOpen + payload + EnvelopeClose + trail;
    var rest := EnvelopeOpen + payload + EnvelopeClose + trail;
    var head := lead + EnvelopeOpen + payload;
    var start := |lead| + |EnvelopeOpen|;
    Regroup5(lead, EnvelopeOpen, payload, EnvelopeClose, trail);
    OpenIndex(lead, rest);
    CloseIndex(head, trail, start);
    ExtractBetween(text, |lead|, |head|);
  }

  /** The two ways EnvelopeRoundTrip splits its text. */
  lemma Regroup5(a: string, b: string, c: string, d: string, e: string)
    ensures a + b + c + d + e == a + (b + c + d + e)
    ensures a + b + c + d + e == (a + b + c) + d + e
    ensures (a + b + c + d + e)[|a| + |b|..|a| + |b| + |c|] == c
  {
  }

  /** Once both searches have succeeded, the capture is the text between them. */
  lemma ExtractBetween(text: string, i: nat, j: nat)
    requires IndexOfFrom(text, EnvelopeOpen, 0) == Some(i)
    requires LastIndexFrom(text, EnvelopeClose, i + |EnvelopeOpen|) == Some(j)
    ensures i + |EnvelopeOpen| <= j <= |text| && ExtractEnvelope(text) == Some(text[i + |EnvelopeOpen|..j])
  {
  }

  /** The search for the opening call stops where `rest` starts. */
  lemma OpenIndex(lead: string, rest: string)
    requires forall k :: 0 <= k < |lead| ==> lead[k] != 'g'
    requires |rest| >= |EnvelopeOpen| && rest[..|EnvelopeOpen|] == EnvelopeOpen
    ensures IndexOfFrom(lead + rest, EnvelopeOpen, 0) == Some(|lead|)
  {
    OpenFoundAfterLead(lead, rest);
  }

  /** The backward search for `);` from `start` stops at the one that ends `head`. */
  lemma CloseIndex(head: string, trail: string, start: nat)
    requires start <= |head| && !Includes(trail, EnvelopeClose)
    ensures LastIndexFrom(head + EnvelopeClose + trail, EnvelopeClose, start) == Some(|head|)
  {
    CloseIsLast(head, trail);
  }

  /** Text free of `g` cannot hold an opening call, so the first one is where `rest` starts. */
  lemma OpenFoundAfterLead(lead: string, rest: string)
    requires forall k :: 0 <= k < |lead| ==> lead[k] != 'g'
    requires |rest| >= |EnvelopeOpen| && rest[..|EnvelopeOpen|] == EnvelopeOpen
    ensures StartsAt(lead + rest, EnvelopeOpen, |lead|)
    ensures forall k :: 0 <= k < |lead| ==> !StartsAt(lead + rest, EnvelopeOpen, k)
  {
    var text := lead + rest;
    assert text[|lead|..|lead| + |EnvelopeOpen|] == rest[..|EnvelopeOpen|];
    forall k | 0 <= k < |lead| ensures !StartsAt(text, EnvelopeOpen, k) {
      assert text[k] == lead[k];
      if k + |EnvelopeOpen| <= |text| {
        assert text[k..k + |EnvelopeOpen|][0] == text[k];
      }
    }
  }

  /** A `);` followed by text without `);` is the last one. */
  lemma CloseIsLast(head: string, trail: string)
    requires !Includes(trail, EnvelopeClose)
    ensures StartsAt(head + EnvelopeClose + trail, EnvelopeClose, |head|)
    ensures forall k :: |head| < k ==> !StartsAt(head + EnvelopeClose + trail, EnvelopeClose, k)
  {
    var text := head + EnvelopeClose + trail;
    var j := |head|;
    assert text[j..j + 2] == EnvelopeClose;
    IncludesIff(trail, EnvelopeClose);
    forall k | j < k ensures !StartsAt(text, EnvelopeClose, k) {
      if k + 2 <= |text| {
        if k == j + 1 {
          assert text[k] == ';';
          assert text[k..k + 2][0] == text[k];
        } else {
          assert text[k..k + 2] == trail[k - j - 2..k - j];
          assert !StartsAt(trail, EnvelopeClose, k - j - 2);
        }
      }
    }
  }

  // ---------------------------------------------------------------------------
  // Row coercion

  /** `row.c[i]`: a missing or `null` cell is `None`. */
  function CellAt(row: Row, i: nat): Option<Cell> {
    if i < |row.c| then row.c[i] else None
  }

  /** `row.c[i]?.v`. */
  function ValueAt(row: Row, i: nat): JsValue {
    match CellAt(row, i)
    case Some(cell) => cell.v
    case None => Undefined
  }

  /** `row.c[i]?.f`. */
  function FormattedAt(row: Row, i: nat): Option<string> {
    match CellAt(row, i)
    case Some(cell) => cell.f
    case None => None
  }

  /**
   Optional chaining on a cell: a present cell gives its own fields, and a
   cell past the end of `c` or `null` gives `undefined` for both.
   */
  lemma CellFields(row: Row, i: nat)
    ensures i < |row.c| && row.c[i].Some? ==>
              ValueAt(row, i) == row.c[i].value.v && FormattedAt(row, i) == row.c[i].value.f
    ensures (i >= |row.c| || row.c[i].None?) <==> CellAt(row, i).None?
    ensures CellAt(row, i).None? ==> ValueAt(row, i) == Undefined && FormattedAt(row, i).None?
  {
  }

  /** `Number(v)`, with `None` for NaN. */
  function ToNumber(host: Host, v: JsValue): Option<int> {
    match v
    case Undefined => None
    case Null => Some(0)
    case Num(n) => Some(n)
    case Str(s) => host.numberFromString(s)
    case DateObject(d) => Some(d * MsPerDay)
  }

  /** `String(v)`. */
  function ToJsString(host: Host, v: JsValue): string {
    match v
    case Undefined => "undefined"
    case Null => "null"
    case Num(n) => IntToDecimal(n)
    case Str(s) => s
    case DateObject(d) => host.dateToString(d)
  }

  /** `s || fallback` on a string: only the empty string is falsy. */
  function OrElse(s: string, fallback: string): string {
    if s == "" then fallback else s
  }

  /** The row-to-record mapping of fetchTrendingVideos, column by column. */
  function DecodeRow(host: Host, row: Row): RawVideo {
    RawVideo(
      rank := ToNumber(host, ValueAt(row, 0)).GetOr(0),
      title := OrElse(ToJsString(host, ValueAt(row, 1)), ""),
      description := OrElse(ToJsString(host, ValueAt(row, 2)), ""),
      publishedDate := ParseDateFromSheet(host, ValueAt(row, 3), FormattedAt(row, 3)),
      videoId := OrElse(ToJsString(host, ValueAt(row, 4)), ""),
      videoUrl := OrElse(ToJsString(host, ValueAt(row, 5)), ""),
      channelName := OrElse(ToJsString(host, ValueAt(row, 6)), ""),
      thumbnails := OrElse(ToJsString(host, ValueAt(row, 7)), "{}"),
      outputDate := OrElse(ToJsString(host, ValueAt(row, 8)), ""),
      trendingRegion := OrElse(ToJsString(host, ValueAt(row, 9)), ""))
  }

  /** The filter after the mapping: a non-empty id and a positive rank. */
  predicate IsValidRow(r: RawVideo) {
    r.videoId != "" && r.rank > 0
  }

  /** DecodeRow as a function value, the callback of `rows.map`. */
  function RowDecoder(host: Host): Row -> RawVideo {
    row => DecodeRow(host, row)
  }

  /** Decode every row, then keep the valid ones in table order. */
  function DecodeRows(host: Host, rows: seq<Row>): (r: seq<RawVideo>)
    ensures r == Seqs.Filter(IsValidRow, Seqs.Map(RowDecoder(host), rows))
    ensures |r| <= |rows|
    ensures forall x :: x in r ==> IsValidRow(x)
    ensures forall x :: x in r ==> exists i :: 0 <= i < |rows| && x == DecodeRow(host, rows[i])
    ensures forall i :: 0 <= i < |rows| && IsValidRow(DecodeRow(host, rows[i])) ==> DecodeRow(host, rows[i]) in r
  {
    Seqs.MapFilter(RowDecoder(host), IsValidRow, rows)
  }

  /** A rank cell that is missing, `null` or not a number coerces to 0, so the row is dropped. */
  lemma NonNumericRankIsDropped(host: Host, row: Row)
    requires ValueAt(row, 0).Undefined? || ValueAt(row, 0).Null?
          || (ValueAt(row, 0).Str? && host.numberFromString(ValueAt(row, 0).s).None?)
    ensures DecodeRow(host, row).rank == 0
    ensures !IsValidRow(DecodeRow(host, row))
  {
  }

  /** `String(undefined) || ''` is "undefined": a missing id cell does not empty the id, so only the rank decides. */
  lemma MissingIdIsUndefined(host: Host, row: Row)
    requires ValueAt(row, 4).Undefined?
    ensures DecodeRow(host, row).videoId == "undefined"
    ensures IsValidRow(DecodeRow(host, row)) <==> DecodeRow(host, row).rank > 0
  {
  }

  /** An empty thumbnails cell falls back to the empty JSON object. */
  lemma EmptyThumbnailsDefault(host: Host, row: Row)
    requires ValueAt(row, 7) == Str("")
    ensures DecodeRow(host, row).thumbnails == "{}"
  {
  }

  // ---------------------------------------------------------------------------
  // fetchTrendingVideos after the response text has been read

  /** The envelope holds a non-empty payload. */
  predicate HasPayload(text: string) {
    ExtractEnvelope(text).Some? && ExtractEnvelope(text).value != ""
  }

  /** The non-empty payload parses as JSON. */
  predicate ParsesAsJson(host: Host, text: string) {
    HasPayload(text) && host.parseJson(ExtractEnvelope(text).value).Some?
  }

  /** The parsed payload has a table with a `rows` array. */
  predicate HasRows(host: Host, text: string) {
    ParsesAsJson(host, text)
    && host.parseJson(ExtractEnvelope(text).value).value.table.Some?
    && host.parseJson(ExtractEnvelope(text).value).value.table.value.rows.Some?
  }

  /**
   Everything fetchTrendingVideos does with the response text: each error is
   raised exactly when its step fails, and a table with rows gives the
   processed, filtered rows.
   */
  function DecodeResponse(host: Host, text: string): (r: Result<Merge.Dataset, FetchError>)
    ensures r == Failure(EnvelopeNotFound) <==> !HasPayload(text)
    ensures r == Failure(MalformedJson) <==> HasPayload(text) && !ParsesAsJson(host, text)
    ensures r == Failure(NoData) <==> ParsesAsJson(host, text) && !HasRows(host, text)
    ensures HasRows(host, text) ==>
              r == Success(Merge.ProcessData(DecodeRows(host,
                     host.parseJson(ExtractEnvelope(text).value).value.table.value.rows.value)))
  {
    match ExtractEnvelope(text)
    case None => Failure(EnvelopeNotFound)
    case Some(json) =>
      if json == "" then Failure(EnvelopeNotFound)
      else match host.parseJson(json)
        case None => Failure(MalformedJson)
        case Some(data) =>
          if data.table.None? || data.table.value.rows.None? then Failure(NoData)
          else Success(Merge.ProcessData(DecodeRows(host, data.table.value.rows.value)))
  }

  /** A table whose `rows` array is present but empty is not an error: it yields an empty dataset. */
  lemma EmptyRowsIsEmptyDataset(host: Host, text: string)
    requires ExtractEnvelope(text).Some? && ExtractEnvelope(text).value != ""
    requires host.parseJson(ExtractEnvelope(text).value) == Some(SheetData(Some(Table(Some([])))))
    ensures DecodeResponse(host, text) == Success(Merge.Dataset([], []))
  {
  }
}

=== FILE: text.dfy ===
/**
 The JavaScript string operations the dashboard relies on: decimal digits
 (`parseInt`, `String(n)`), whitespace trimming (`String.prototype.trim`),
 substring search (`includes`, the first match of a literal pattern) and the
 default string order of `Array.prototype.sort`.
 */
module Text {
  import opened Wrappers

  // ---------------------------------------------------------------------------
  // Decimal digits

  /** The regular-expression class `\d`: ASCII digits only. */
  predicate IsDigit(c: char) {
    '0' <= c <= '9'
  }

  predicate AllDigits(s: string) {
    forall i :: 0 <= i < |s| ==> IsDigit(s[i])
  }

  function DigitValue(c: char): nat
    requires IsDigit(c)
  {
    (c as int) - ('0' as int)
  }

  function DigitChar(n: nat): (c: char)
    requires n < 10
    ensures IsDigit(c) && DigitValue(c) == n
  {
    (('0' as int) + n) as char
  }

  /** `parseInt(s, 10)` of a run of decimal digits (leading zeros allowed). */
  function DecimalValue(s: string): nat
    requires AllDigits(s)
  {
    if |s| == 0 then 0 else DecimalValue(s[..|s| - 1]) * 10 + DigitValue(s[|s| - 1])
  }

  /** The decimal spelling of a natural number, without leading zeros. */
  function NatToDecimal(n: nat): (r: string)
    ensures 0 < |r| && AllDigits(r)
  {
    if n < 10 then [DigitChar(n)] else NatToDecimal(n / 10) + [DigitChar(n % 10)]
  }

  /** `String(n)` for an integer-valued number (below 10^21, where JavaScript switches to exponent form). */
  function IntToDecimal(n: int): string {
    if n < 0 then "-" + NatToDecimal(-n) else NatToDecimal(n)
  }

  /** Parsing the decimal spelling of `n` gives `n` back. */
  lemma {:induction false} DecimalRoundTrip(n: nat)
    ensures DecimalValue(NatToDecimal(n)) == n
  {
    var r := NatToDecimal(n);
    if n >= 10 {
      DecimalRoundTrip(n / 10);
      assert r[..|r| - 1] == NatToDecimal(n / 10);
    }
  }

  /** Distinct integers are spelled differently. */
  lemma IntToDecimalInjective(a: int, b: int)
    requires IntToDecimal(a) == IntToDecimal(b)
    ensures a == b
  {
    if a < 0 && b < 0 {
      assert NatToDecimal(-a) == IntToDecimal(a)[1..];
      DecimalRoundTrip(-a);
      DecimalRoundTrip(-b);
    } else if a >= 0 && b >= 0 {
      DecimalRoundTrip(a);
      DecimalRoundTrip(b);
    } else {
      SpellingSign(a);
      SpellingSign(b);
      assert false;
    }
  }

  /** Only negative numbers are spelled with a leading minus sign. */
  lemma SpellingSign(n: int)
    ensures |IntToDecimal(n)| > 0
    ensures IntToDecimal(n)[0] == '-' <==> n < 0
  {
    if n >= 0 {
      assert IsDigit(IntToDecimal(n)[0]);
    }
  }

  // ---------------------------------------------------------------------------
  // Whitespace and String.prototype.trim

  /** ECMAScript WhiteSpace and LineTerminator code points, which `trim` removes. */
  predicate IsJsSpace(c: char) {
    || c == '\t' || c == '\n' || c == '\U{000B}' || c == '\U{000C}' || c == '\r' || c == ' '
    || c == '\U{00A0}' || c == '\U{1680}' || ('\U{2000}' <= c <= '\U{200A}')
    || c == '\U{2028}' || c == '\U{2029}' || c == '\U{202F}' || c == '\U{205F}'
    || c == '\U{3000}' || c == '\U{FEFF}'
  }

  predicate IsBlank(s: string) {
    forall i :: 0 <= i < |s| ==> IsJsSpace(s[i])
  }

  function TrimStart(s: string): string {
    if |s| > 0 && IsJsSpace(s[0]) then TrimStart(s[1..]) else s
  }

  function TrimEnd(s: string): string {
    if |s| > 0 && IsJsSpace(s[|s| - 1]) then TrimEnd(s[..|s| - 1]) else s
  }

  /** `String.prototype.trim`: strips leading and trailing whitespace. */
  function Trim(s: string): string {
    TrimEnd(TrimStart(s))
  }

  /** What is left after stripping leading whitespace does not start with whitespace. */
  lemma {:induction false} TrimStartHead(s: string)
    ensures TrimStart(s) == "" || !IsJsSpace(TrimStart(s)[0])
  {
    if |s| > 0 && IsJsSpace(s[0]) {
      TrimStartHead(s[1..]);
    }
  }

  /** Stripping trailing whitespace leaves a prefix that does not end with whitespace. */
  lemma {:induction false} TrimEndShape(s: string)
    ensures |TrimEnd(s)| <= |s| && TrimEnd(s) == s[..|TrimEnd(s)|]
    ensures TrimEnd(s) == "" || !IsJsSpace(TrimEnd(s)[|TrimEnd(s)| - 1])
  {
    if |s| > 0 && IsJsSpace(s[|s| - 1]) {
      var p := s[..|s| - 1];
      TrimEndShape(p);
      assert p[..|TrimEnd(p)|] == s[..|TrimEnd(p)|];
    }
  }

  /** The trimmed string is empty exactly when the input is all whitespace; otherwise it has none at either end. */
  lemma TrimEmptyIffBlank(s: string)
    ensures Trim(s) == "" <==> IsBlank(s)
    ensures Trim(s) != "" ==> !IsJsSpace(Trim(s)[0]) && !IsJsSpace(Trim(s)[|Trim(s)| - 1])
  {
    var t := TrimStart(s);
    TrimStartBlank(s);
    TrimEndBlank(t);
    if Trim(s) == "" {
      assert IsBlank(TrimEnd(t));
    } else {
      TrimEnds(s);
    }
  }

  lemma TrimEnds(s: string)
    requires Trim(s) != ""
    ensures !IsJsSpace(Trim(s)[0]) && !IsJsSpace(Trim(s)[|Trim(s)| - 1])
  {
    var t := TrimStart(s);
    TrimStartHead(s);
    TrimEndShape(t);
    assert Trim(s)[0] == t[0];
  }

  /** Stripping leading whitespace neither creates nor removes blankness, and empties a blank string. */
  lemma {:induction false} TrimStartBlank(s: string)
    ensures IsBlank(TrimStart(s)) <==> IsBlank(s)
    ensures IsBlank(s) ==> TrimStart(s) == ""
  {
    if |s| > 0 && IsJsSpace(s[0]) {
      TrimStartBlank(s[1..]);
      BlankCons(s);
    }
  }

  /** Stripping trailing whitespace neither creates nor removes blankness, and empties a blank string. */
  lemma {:induction false} TrimEndBlank(s: string)
    ensures IsBlank(TrimEnd(s)) <==> IsBlank(s)
    ensures IsBlank(s) ==> TrimEnd(s) == ""
  {
    if |s| > 0 && IsJsSpace(s[|s| - 1]) {
      TrimEndBlank(s[..|s| - 1]);
      BlankSnoc(s);
    }
  }

  lemma BlankCons(s: string)
    requires |s| > 0 && IsJsSpace(s[0])
    ensures IsBlank(s) <==> IsBlank(s[1..])
  {
    if IsBlank(s[1..]) {
      forall i | 1 <= i < |s| ensures IsJsSpace(s[i]) {
        assert s[i] == s[1..][i - 1];
      }
    }
  }

  lemma BlankSnoc(s: string)
    requires |s| > 0 && IsJsSpace(s[|s| - 1])
    ensures IsBlank(s) <==> IsBlank(s[..|s| - 1])
  {
    if IsBlank(s[..|s| - 1]) {
      forall i | 0 <= i < |s| - 1 ensures IsJsSpace(s[i]) {
        assert s[i] == s[..|s| - 1][i];
      }
    }
  }

  // ---------------------------------------------------------------------------
  // Substring search

  /** Pattern `p` occurs in `s` at index `i`. */
  predicate StartsAt(s: string, p: string, i: int) {
    0 <= i && i + |p| <= |s| && s[i..i + |p|] == p
  }

  /** The first index at or after `from` where `p` occurs, if any. */
  function IndexOfFrom(s: string, p: string, from: nat): (r: Option<nat>)
    ensures r.Some? ==> from <= r.value && StartsAt(s, p, r.value)
    ensures r.Some? ==> forall k :: from <= k < r.value ==> !StartsAt(s, p, k)
    ensures r.None? ==> forall k :: from <= k ==> !StartsAt(s, p, k)
    decreases |s| - from
  {
    if from + |p| > |s| then None
    else if s[from..from + |p|] == p then Some(from)
    else IndexOfFrom(s, p, from + 1)
  }

  /** `s.includes(p)`. */
  predicate Includes(s: string, p: string) {
    IndexOfFrom(s, p, 0).Some?
  }

  lemma IncludesIff(s: string, p: string)
    ensures Includes(s, p) <==> exists k :: StartsAt(s, p, k)
  {
  }

  /** The last index at or after `from` where `p` occurs, if any. */
  function LastIndexFrom(s: string, p: string, from: nat): (r: Option<nat>)
    ensures r.Some? ==> from <= r.value && StartsAt(s, p, r.value)
    ensures r.Some? ==> forall k :: r.value < k ==> !StartsAt(s, p, k)
    ensures r.None? ==> forall k :: from <= k ==> !StartsAt(s, p, k)
    decreases |s| - from
  {
    if from + |p| > |s| then None
    else match LastIndexFrom(s, p, from + 1)
      case Some(k) => Some(k)
      case None => if s[from..from + |p|] == p then Some(from) else None
  }

  // ---------------------------------------------------------------------------
  // The default order of Array.prototype.sort on strings

  /** Lexicographic order on characters (a proper prefix comes first). */
  predicate StrLt(a: string, b: string) {
    if |a| == 0 then |b| > 0
    else if |b| == 0 then false
    else if a[0] != b[0] then a[0] < b[0]
    else StrLt(a[1..], b[1..])
  }

  lemma {:induction false} StrLtIrreflexive(a: string)
    ensures !StrLt(a, a)
  {
    if |a| > 0 {
      StrLtIrreflexive(a[1..]);
    }
  }

  lemma {:induction false} StrLtTransitive(a: string, b: string, c: string)
    requires StrLt(a, b) && StrLt(b, c)
    ensures StrLt(a, c)
  {
    if |a| > 0 && |b| > 0 && |c| > 0 && a[0] == b[0] && b[0] == c[0] {
      StrLtTransitive(a[1..], b[1..], c[1..]);
    }
  }

  lemma {:induction false} StrLtTotal(a: string, b: string)
    requires a != b
    ensures StrLt(a, b) || StrLt(b, a)
    ensures !(StrLt(a, b) && StrLt(b, a))
  {
    if |a| > 0 && |b| > 0 && a[0] == b[0] {
      assert a == [a[0]] + a[1..] && b == [b[0]] + b[1..];
      StrLtTotal(a[1..], b[1..]);
    }
  }
}

=== FILE: types.dfy ===
/** The dashboard's two record shapes: a spreadsheet row and a merged video. */
module Types {
  import opened Calendar

  /** One spreadsheet row after coercion: a video's appearance on one region's trending list. */
  datatype RawVideo = RawVideo(
    rank: int,
    title: string,
    description: string,
    publishedDate: Day,
    videoId: string,
    videoUrl: string,
    channelName: string,
    thumbnails: string,
    outputDate: string,
    trendingRegion: string)

  /** One video after merging all of its rows: the row with its best (lowest) rank. */
  datatype Video = Video(
    id: string,
    bestRank: int,
    title: string,
    channelName: string,
    videoUrl: string,
    publishedDate: Day,
    publishedDateFormatted: string,
    bestRegion: string)
}

=== FILE: videocard.dfy ===
/**
 The two pieces of logic in components/VideoCard.tsx: the thumbnail fallback
 chain (max resolution, then standard, then high quality, then a placeholder
 image) and the badge colour of a video's best region.
 */
module VideoCard {
  import opened Text

  // ---------------------------------------------------------------------------
  // Thumbnail URLs

  /**
   The thumbnail base `https://i.ytimg.com/vi/`. It is spelled as scheme,
   host and path so that the lemmas about which characters it contains
   (BaseLacks) can reason about three short literals instead of one long one,
   which the verifier would otherwise expand character by character.
   */
  const ThumbScheme := "https://"
  const ThumbHost := "i.ytimg.com"
  const ThumbPath := "/vi/"
  const ThumbBase := ThumbScheme + ThumbHost + ThumbPath
  const MaxResFile := "maxresdefault.jpg"
  const SdFile := "sddefault.jpg"
  const HqFile := "hqdefault.jpg"
  /**
   The "Image Unavailable" placeholder
   `https://placehold.co/1280x720/1f2937/9ca3af?text=Image+Unavailable`,
   spelled in three parts for the same reason as ThumbBase.
   */
  const PlaceholderHost := "https://placehold.co/"
  const PlaceholderSize := "1280x720/1f2937/9ca3af?"
  const PlaceholderText := "text=Image+Unavailable"
  const Placeholder := PlaceholderHost + PlaceholderSize + PlaceholderText

  /** The thumbnail file `file` of video `id`. */
  function ThumbUrl(id: string, file: string): string {
    ThumbBase + id + "/" + file
  }

  /** The first URL a card tries. */
  function InitialThumbnail(id: string): string {
    ThumbUrl(id, MaxResFile)
  }

  /**
   handleThumbnailError as written: the next URL is chosen by looking for a
   file name anywhere in the current URL, video id included.
   */
  function OnThumbnailError(id: string, current: string): string {
    if Includes(current, MaxResFile) then ThumbUrl(id, SdFile)
    else if Includes(current, SdFile) then ThumbUrl(id, HqFile)
    else Placeholder
  }

  /** The URL shown after `n` consecutive load failures. */
  function AfterFailures(id: string, n: nat): string {
    if n == 0 then InitialThumbnail(id) else OnThumbnailError(id, AfterFailures(id, n - 1))
  }

  // ---------------------------------------------------------------------------
  // The intended chain, with the step kept as explicit state

  /** Where the card is in the fallback chain. */
  datatype Tier = MaxRes | Sd | Hq | Unavailable

  function TierUrl(id: string, t: Tier): string {
    match t
    case MaxRes => ThumbUrl(id, MaxResFile)
    case Sd => ThumbUrl(id, SdFile)
    case Hq => ThumbUrl(id, HqFile)
    case Unavailable => Placeholder
  }

  /** The step after a failure: one tier down, staying on the placeholder at the end. */
  function NextTier(t: Tier): (r: Tier)
    ensures t != Unavailable ==> Rung(r) + 1 == Rung(t)
    ensures t == Unavailable ==> r == Unavailable
  {
    match t
    case MaxRes => Sd
    case Sd => Hq
    case Hq => Unavailable
    case Unavailable => Unavailable
  }

  /** How many fallbacks are left below a tier. */
  function Rung(t: Tier): nat {
    match t
    case MaxRes => 3
    case Sd => 2
    case Hq => 1
    case Unavailable => 0
  }

  function TierAfter(n: nat): (t: Tier)
    ensures n >= 3 ==> t == Unavailable
    ensures Rung(t) == if n >= 3 then 0 else 3 - n
  {
    if n == 0 then MaxRes else NextTier(TierAfter(n - 1))
  }

  /** The corrected chain visits each tier once and then stays on the placeholder. */
  lemma TiersAreVisitedInOrder()
    ensures TierAfter(0) == MaxRes && TierAfter(1) == Sd && TierAfter(2) == Hq && TierAfter(3) == Unavailable
    ensures forall t :: NextTier(NextTier(NextTier(t))) == Unavailable
  {
  }

  // ---------------------------------------------------------------------------
  // When the substring tests agree with the intended chain

  /** A pattern holding a character that `s` lacks does not occur in `s`. */
  lemma MissingChar(s: string, p: string, j: int)
    requires 0 <= j < |p| && p[j] !in s
    ensures !Includes(s, p)
  {
    forall k ensures !StartsAt(s, p, k) {
      if 0 <= k && k + |p| <= |s| {
        assert s[k..k + |p|][j] == s[k + j];
      }
    }
    IncludesIff(s, p);
  }

  /**
   A pattern without `/` that occurs in none of the three parts does not
   occur in `a + b + c` when `a` ends and `c` starts with `/`.
   */
  lemma NotAcrossSlashes(a: string, b: string, c: string, p: string)
    requires |a| > 0 && a[|a| - 1] == '/' && |c| > 0 && c[0] == '/'
    requires forall i :: 0 <= i < |p| ==> p[i] != '/'
    requires !Includes(a, p) && !Includes(b, p) && !Includes(c, p)
    ensures !Includes(a + b + c, p)
  {
    var s := a + b + c;
    IncludesIff(a, p);
    IncludesIff(b, p);
    IncludesIff(c, p);
    assert s[..|a|] == a && s[|a|..|a| + |b|] == b && s[|a| + |b|..] == c;
    forall k | 0 <= k && k + |p| <= |s| ensures !StartsAt(s, p, k) {
      var e := k + |p|;
      if e <= |a| {
        WindowInPart(s, a, 0, p, k);
      } else if k >= |a| && e <= |a| + |b| {
        WindowInPart(s, b, |a|, p, k);
      } else if k >= |a| + |b| {
        WindowInPart(s, c, |a| + |b|, p, k);
      } else if k < |a| {
        WindowOverSlash(s, p, k, |a| - 1);
      } else {
        WindowOverSlash(s, p, k, |a| + |b|);
      }
    }
    IncludesIff(s, p);
  }

  /** A window inside a part of `s` is a window of that part. */
  lemma WindowInPart(s: string, part: string, off: nat, p: string, k: nat)
    requires off + |part| <= |s| && s[off..off + |part|] == part
    requires off <= k && k + |p| <= off + |part|
    requires !StartsAt(part, p, k - off)
    ensures !StartsAt(s, p, k)
  {
    forall j | k - off <= j < k - off + |p|
      ensures part[j] == s[off + j]
    {
      assert part[j] == s[off..off + |part|][j];
    }
    assert s[k..k + |p|] == part[k - off..k - off + |p|];
  }

  /** A window covering a `/` cannot match a pattern without one. */
  lemma WindowOverSlash(s: string, p: string, k: nat, m: nat)
    requires k <= m < k + |p| <= |s| && s[m] == '/'
    requires forall i :: 0 <= i < |p| ==> p[i] != '/'
    ensures !StartsAt(s, p, k)
  {
    assert s[k..k + |p|][m - k] == s[m];
  }

  /** What occurs in a part occurs in the whole. */
  lemma IncludedInMiddle(a: string, b: string, c: string, p: string)
    requires Includes(b, p)
    ensures Includes(a + b + c, p)
  {
    IncludesIff(b, p);
    var k :| StartsAt(b, p, k);
    var s := a + b + c;
    assert s[|a| + k..|a| + k + |p|] == b[k..k + |p|];
    assert StartsAt(s, p, |a| + k);
    IncludesIff(s, p);
  }

  /** A file name after the id is found in the URL. */
  lemma FileInUrl(id: string, file: string)
    ensures Includes(ThumbUrl(id, file), file)
  {
    assert StartsAt(file, file, 0);
    IncludesIff(file, file);
    IncludedInMiddle(ThumbBase + id + "/", file, [], file);
    assert ThumbBase + id + "/" + file + [] == ThumbUrl(id, file);
  }

  /** None of the fixed URL parts contains a tested file name. */
  lemma BaseLacksNames()
    ensures !Includes(ThumbBase, MaxResFile) && !Includes(ThumbBase, SdFile)
  {
    BaseLacks('x');
    BaseLacks('d');
    assert MaxResFile[2] == 'x' && SdFile[1] == 'd';
    MissingChar(ThumbBase, MaxResFile, 2);
    MissingChar(ThumbBase, SdFile, 1);
  }

  lemma BaseLacks(c: char)
    requires c == 'x' || c == 'd'
    ensures c !in ThumbBase
  {
    assert c !in ThumbScheme && c !in ThumbHost && c !in ThumbPath;
  }

  lemma TailsLackNames()
    ensures !Includes("/" + SdFile, MaxResFile)
    ensures !Includes("/" + HqFile, MaxResFile) && !Includes("/" + HqFile, SdFile)
  {
    MissingChar("/" + SdFile, MaxResFile, 2);
    MissingChar("/" + HqFile, MaxResFile, 2);
    MissingChar("/" + HqFile, SdFile, 0);
  }

  /** The placeholder has no 'j', so neither `.jpg` name occurs in it. */
  lemma PlaceholderLacksNames()
    ensures !Includes(Placeholder, MaxResFile) && !Includes(Placeholder, SdFile)
  {
    var a, b, c := PlaceholderHost, PlaceholderSize, PlaceholderText;
    assert forall i :: 0 <= i < |a| ==> a[i] != 'j';
    assert forall i :: 0 <= i < |b| ==> b[i] != 'j';
    assert forall i :: 0 <= i < |c| ==> c[i] != 'j';
    forall i | 0 <= i < |Placeholder| ensures Placeholder[i] != 'j' {
      if i < |a| {
        assert Placeholder[i] == a[i];
      } else if i < |a| + |b| {
        assert Placeholder[i] == b[i - |a|];
      } else {
        assert Placeholder[i] == c[i - |a| - |b|];
      }
    }
    MissingChar(Placeholder, MaxResFile, 14);
    MissingChar(Placeholder, SdFile, 10);
  }

  lemma NamesHaveNoSlash()
    ensures forall i :: 0 <= i < |MaxResFile| ==> MaxResFile[i] != '/'
    ensures forall i :: 0 <= i < |SdFile| ==> SdFile[i] != '/'
  {
  }

  /** With an id free of both tested names, each URL is recognised only by its own file name. */
  lemma UrlsAreRecognised(id: string)
    requires !Includes(id, MaxResFile) && !Includes(id, SdFile)
    ensures !Includes(ThumbUrl(id, SdFile), MaxResFile)
    ensures !Includes(ThumbUrl(id, HqFile), MaxResFile) && !Includes(ThumbUrl(id, HqFile), SdFile)
    ensures !Includes(Placeholder, MaxResFile) && !Includes(Placeholder, SdFile)
  {
    BaseLacksNames();
    TailsLackNames();
    PlaceholderLacksNames();
    NamesHaveNoSlash();
    UrlLacks(id, SdFile, MaxResFile);
    UrlLacks(id, HqFile, MaxResFile);
    UrlLacks(id, HqFile, SdFile);
  }

  /** A slash-free name absent from the base, the id and the file part is absent from the URL. */
  lemma UrlLacks(id: string, file: string, p: string)
    requires forall i :: 0 <= i < |p| ==> p[i] != '/'
    requires !Includes(ThumbBase, p) && !Includes(id, p) && !Includes("/" + file, p)
    ensures !Includes(ThumbUrl(id, file), p)
  {
    assert ThumbUrl(id, file) == ThumbBase + id + ("/" + file);
    NotAcrossSlashes(ThumbBase, id, "/" + file, p);
  }

  /**
   For an id that holds neither tested file name (every real YouTube id, which
   has no '.'), the handler as written steps exactly like the intended chain.
   */
  lemma HandlerFollowsTiers(id: string, t: Tier)
    requires !Includes(id, MaxResFile) && !Includes(id, SdFile)
    ensures OnThumbnailError(id, TierUrl(id, t)) == TierUrl(id, NextTier(t))
  {
    UrlsAreRecognised(id);
    FileInUrl(id, MaxResFile);
    FileInUrl(id, SdFile);
  }

  /** For such an id, the n-th failure shows the n-th tier: the placeholder from the third failure on. */
  lemma {:induction false} FailuresFollowTiers(id: string, n: nat)
    requires !Includes(id, MaxResFile) && !Includes(id, SdFile)
    ensures AfterFailures(id, n) == TierUrl(id, TierAfter(n))
    ensures n >= 3 ==> AfterFailures(id, n) == Placeholder
  {
    if n > 0 {
      FailuresFollowTiers(id, n - 1);
      HandlerFollowsTiers(id, TierAfter(n - 1));
    }
  }

  /**
   The handler as written never leaves the standard-quality URL of an id that
   contains "maxresdefault.jpg": that URL still contains the name.
   */
  lemma {:induction false} StuckOnStandardQuality(id: string, n: nat)
    requires Includes(id, MaxResFile)
    requires n >= 1
    ensures AfterFailures(id, n) == ThumbUrl(id, SdFile)
    ensures AfterFailures(id, n) != Placeholder
  {
    var s := ThumbUrl(id, SdFile);
    IncludedInMiddle(ThumbBase, id, "/" + SdFile, MaxResFile);
    assert s == ThumbBase + id + ("/" + SdFile);
    assert OnThumbnailError(id, s) == s;
    if n > 1 {
      StuckOnStandardQuality(id, n - 1);
    } else {
      FileInUrl(id, MaxResFile);
    }
    UrlIsNotPlaceholder(id, SdFile);
  }

  /** Thumbnail URLs live on another host than the placeholder. */
  lemma UrlIsNotPlaceholder(id: string, file: string)
    ensures ThumbUrl(id, file) != Placeholder
  {
    assert ThumbUrl(id, file)[8] == ThumbBase[8] == 'i';
    assert Placeholder[8] == PlaceholderHost[8] == 'p';
  }

  /** The shortest such id: after any number of failures the card shows the broken standard-quality URL. */
  lemma FileNameAsId(n: nat)
    requires n >= 1
    ensures AfterFailures(MaxResFile, n) == ThumbBase + "maxresdefault.jpg/sddefault.jpg"
  {
    assert StartsAt(MaxResFile, MaxResFile, 0);
    IncludesIff(MaxResFile, MaxResFile);
    StuckOnStandardQuality(MaxResFile, n);
  }

  // ---------------------------------------------------------------------------
  // Region badge colours

  const DefaultColor := "bg-gray-100 text-gray-800 dark:bg-gray-700 dark:text-gray-300"

  /** REGION_COLORS of constants.ts, its DEFAULT entry included. */
  const RegionColors: map<string, string> := map[
    "US" := "bg-blue-100 text-blue-800 dark:bg-blue-900 dark:text-blue-300",
    "GB" := "bg-red-100 text-red-800 dark:bg-red-900 dark:text-red-300",
    "JP" := "bg-yellow-100 text-yellow-800 dark:bg-yellow-900 dark:text-yellow-300",
    "KR" := "bg-green-100 text-green-800 dark:bg-green-900 dark:text-green-300",
    "DE" := "bg-indigo-100 text-indigo-800 dark:bg-indigo-900 dark:text-indigo-300",
    "FR" := "bg-purple-100 text-purple-800 dark:bg-purple-900 dark:text-purple-300",
    "CA" := "bg-pink-100 text-pink-800 dark:bg-pink-900 dark:text-pink-300",
    "TW" := "bg-gray-100 text-gray-800 dark:bg-gray-700 dark:text-gray-300",
    "HK" := "bg-orange-100 text-orange-800 dark:bg-orange-900 dark:text-orange-300",
    "DEFAULT" := DefaultColor]

  /** `REGION_COLORS[region] || REGION_COLORS.DEFAULT`. */
  function RegionColor(region: string): string {
    if region in RegionColors && RegionColors[region] != "" then RegionColors[region] else RegionColors["DEFAULT"]
  }

  /** A listed region gets its own classes; any other region, the empty one included, gets the default. */
  lemma RegionColorLookup(region: string)
    ensures region in RegionColors ==> RegionColor(region) == RegionColors[region]
    ensures region !in RegionColors ==> RegionColor(region) == DefaultColor
    ensures RegionColor(region) in RegionColors.Values
  {
  }

  /**
   Taiwan's badge is the default grey, the one an unknown or empty region
   gets; each named region other than Taiwan has a non-default badge, and the
   United States and Great Britain differ.
   */
  lemma RegionBadges()
    ensures RegionColor("TW") == RegionColor("") == DefaultColor
    ensures RegionColor("US") != RegionColor("GB") && RegionColor("JP") != DefaultColor
    ensures forall r :: r in RegionColors && r != "TW" && r != "DEFAULT" ==> RegionColor(r) != DefaultColor
  {
  }
}

=== FILE: wrappers.dfy ===
/** Failure-carrying result types shared by the whole model. */
module Wrappers {

  /** A value that may be missing: JavaScript's `null`/`undefined` or a failed match. */
  datatype Option<+T> = None | Some(value: T) {

    /** The carried value, or `default` when there is none. */
    function GetOr(default: T): T {
      match this
      case Some(v) => v
      case None => default
    }
  }

  /** The outcome of an operation that can throw: a value or the reason it failed. */
  datatype Result<+R, +E> = Success(value: R) | Failure(error: E)
}
